=== FILE: README.md ===
# Education-organization cache of the Ed-Fi ODS Admin API, in Dafny

The Admin API keeps a local cache of the education organizations found in every
registered ODS database. A scheduled Quartz job (`RefreshEducationOrganizationsJob`)
asks `EducationOrganizationService.Execute` to refresh it. The service reads each
ODS instance from the users database, decrypts its connection string, runs one SQL
query against the remote ODS and reconciles the result into the
`EducationOrganizations` table of the administrative database: update what
exists, insert what is new, delete what disappeared. Every run is wrapped by
`AdminApiQuartzJobBase`, which records InProgress, Completed or Error in the
job-status table through `JobStatusService`. Multi-tenant deployments resolve
per-tenant databases through `TenantSpecificDbContextProvider`. On the read side,
`GetEducationOrganizationQuery`, `GetEducationOrganizationsQuery` and the
`ReadEducationOrganizations` endpoints list the cache, and `ReadInformation`
reports the API mode and the tenancy.

The model is a set of pure functions over immutable data:

- base.dfy — `Base`: optional values, results, .NET exception kinds, and "state plus escaping exception" steps
- text.dfy — `Text`: IsNullOrEmpty, OrdinalIgnoreCase comparison, Trim
- int64.dfy — `Int64`: `long.TryParse` and `long.ToString`
- engines.dfy — `DatabaseEngines`: the case-insensitive SqlServer/PostgreSql dispatch
- admin_database.dfy — `AdminDatabase`: ODS instances, the cache table, job-status rows, databases by connection string
- tenant_contexts.dfy — `TenantContexts`: `TenantSpecificDbContextProvider`
- job_status.dfy — `JobStatusService`: `SetStatusAsync` and `QuartzJobStatus`
- job_base.dfy — `QuartzJobBase`: `AdminApiQuartzJobBase.Execute` with the job body and the status writer as parameters
- refresh_job.dfy — `RefreshEducationOrganizationsJob`: `ExecuteJobAsync` and one whole scheduled run
- edorg_query.dfy — `EdOrgQuery`: the remote SQL query: filter, joins and the COALESCE for the parent
- row_reader.dfy — `RowReader`: `ReadEducationOrganizationsFromDbDataReader`
- reconcile.dfy — `CacheRefresh`: the reconciliation step of `RefreshEducationOrganizationsAsync`
- synchronizer.dfy — `EducationOrganizationService`: `Execute`, `ProcessOdsInstanceAsync`, `RefreshEducationOrganizationsAsync`, `GetEducationOrganizationsAsync`
- edorg_lookup.dfy — `GetEducationOrganizationQuery`: the three `Execute` overloads
- sorting.dfy — `Ordering`: OrderBy/OrderByDescending and Skip/Take paging
- edorg_listing.dfy — `GetEducationOrganizationsQuery`: the two `ExecuteAsync` overloads
- read_edorgs.dfy — `ReadEducationOrganizations`: the two list endpoints
- information.dfy — `ReadInformation`: `GetInformation`

Conventions:
- The cache is a map from the business key (instance id, organization id) to a
  row, plus the identity counter that hands out surrogate keys.
- A database is addressed by its connection string; an absent key means the
  database cannot be opened.
- An operation that commits work and may throw afterwards returns a `Step`: the
  state reached and the exception that escaped, if any. Per-instance
  `SaveChangesAsync` commits before a later instance can throw, so this matters.
- Reads of a table take a scan, a sequence in the store's order, tied to the map
  by `IsScanOf`.

Behaviour of the code that the model keeps:
- Instances are refreshed one after another. There is no concurrency limit and
  no per-instance failure isolation. The first exception ends the loop, and
  earlier instances' commits persist.
- In multi-tenant mode `Execute` does not forward the instance id, so every
  instance of the tenant is refreshed (line 72 of the service).
- A connection string that fails to decrypt is logged and skipped, not thrown.
  `SaveChangesAsync` still runs with nothing to save.
- A `Completed` write that throws is caught by the same handler. The status
  trace is then InProgress, Completed, Error, so Completed and Error can both be
  written for one run.
- The `EducationOrganizationModel` file declares only five properties. The
  endpoints' projections assign ten, and the model follows the projections.

## Model

| member | source | states |
|---|---|---|
| Text.Trim | Application/EdFi.Ods.AdminApi/Infrastructure/Services/EducationOrganizationService/EducationOrganizationService.cs:246-248 | the white space `long.TryParse` skips around a number under NumberStyles.Integer (TAB to CR and SPACE), and that `Enum.TryParse` trims from the API mode: the result is a contiguous slice whose removed ends are all white space and whose own ends are not |
| Int64.TryParseLong | Application/EdFi.Ods.AdminApi/Infrastructure/Services/EducationOrganizationService/EducationOrganizationService.cs:246-248 | long.TryParse: succeeds exactly when the trimmed text is an optional sign and at least one digit whose value fits in 64 bits, and then yields that value; blank text never parses |
| Int64.ParseFormatRoundTrip | Application/EdFi.Ods.AdminApi/Infrastructure/Services/EducationOrganizationService/EducationOrganizationService.cs:246-248 | parsing the invariant-culture rendering of any 64-bit value gives that value back |
| Int64.BlankNeverParses | Application/EdFi.Ods.AdminApi/Infrastructure/Services/EducationOrganizationService/EducationOrganizationService.cs:246-251 | an all-white-space cell never converts, so the conversion throws for it |
| DatabaseEngines.Match | Application/EdFi.Ods.AdminApi/Infrastructure/Services/Tenants/TenantSpecificDbContextProvider.cs:44-60 | the engine is SqlServer or PostgreSql when it equals that name ignoring case, tried in that order, and none exactly when it equals neither |
| DatabaseEngines.MatchIsCaseInsensitive | Application/EdFi.Ods.AdminApi/Infrastructure/Services/Tenants/TenantSpecificDbContextProvider.cs:44-51 | two engine strings equal up to letter case dispatch to the same engine |
| DatabaseEngines.MatchName | Application/EdFi.Ods.AdminApi/Infrastructure/Services/Tenants/TenantSpecificDbContextProvider.cs:44-51 | each engine's own name dispatches to that engine |
| TenantContexts.NewProvider | Application/EdFi.Ods.AdminApi/Infrastructure/Services/Tenants/TenantSpecificDbContextProvider.cs:27-38 | construction fails with ArgumentNullException exactly when the engine is missing, otherwise snapshots the tenant map and keeps the engine text unvalidated |
| TenantContexts.GetContext | Application/EdFi.Ods.AdminApi/Infrastructure/Services/Tenants/TenantSpecificDbContextProvider.cs:40-84 | unknown tenant gives KeyNotFound; known tenant with an unsupported engine gives NotSupported with the engine in the message; otherwise a context bound to the tenant's admin connection string, with lower-case naming exactly for PostgreSQL |
| TenantContexts.GetAdminApiDbContext | Application/EdFi.Ods.AdminApi/Infrastructure/Services/Tenants/TenantSpecificDbContextProvider.cs:40-61 | an unknown tenant throws KeyNotFound; a known tenant gets either NotSupported for the engine, or an AdminApiDbContext on its admin connection string with the matched engine and lower-case naming exactly for PostgreSQL; success exactly for a known tenant and a supported engine |
| TenantContexts.GetUsersContext | Application/EdFi.Ods.AdminApi/Infrastructure/Services/Tenants/TenantSpecificDbContextProvider.cs:63-84 | an unknown tenant throws KeyNotFound; a known tenant gets either NotSupported for the engine, or a users context on its admin connection string with the matched engine and lower-case naming exactly for PostgreSQL; success exactly for a known tenant and a supported engine |
| TenantContexts.UnknownTenantBeatsBadEngine | Application/EdFi.Ods.AdminApi/Infrastructure/Services/Tenants/TenantSpecificDbContextProvider.cs:40-61 | the dictionary lookup comes before the engine check: an unknown tenant is KeyNotFound whatever the engine string |
| TenantContexts.GettersAgree | Application/EdFi.Ods.AdminApi/Infrastructure/Services/Tenants/TenantSpecificDbContextProvider.cs:40-84 | both getters succeed or fail together with the same exception and, on success, bind to the same connection string, engine and naming convention |
| TenantContexts.EngineCaseDoesNotMatter | Application/EdFi.Ods.AdminApi/Infrastructure/Services/Tenants/TenantSpecificDbContextProvider.cs:40-84 | engine settings that differ only in letter case resolve every tenant identically |
| JobStatusService.StatusNameRoundTrip | Application/EdFi.Ods.AdminApi/Infrastructure/Services/Jobs/JobStatusService.cs:36-50 | the stored status string is the enum member name and reads back as the status written |
| JobStatusService.ResolveStore | Application/EdFi.Ods.AdminApi/Infrastructure/Services/Jobs/JobStatusService.cs:25-32 | the tenant store is used exactly when multi-tenancy is on and the tenant name is neither null nor empty, otherwise the default store |
| JobStatusService.Upsert | Application/EdFi.Ods.AdminApi/Infrastructure/Services/Jobs/JobStatusService.cs:34-50 | after a write the job id has exactly one row holding the new status name and message (a null message clears an old one); every other job's row is unchanged |
| JobStatusService.SetStatus | Application/EdFi.Ods.AdminApi/Infrastructure/Services/Jobs/JobStatusService.cs:21-52 | a failed store resolution or unreachable store throws and changes nothing; otherwise only the one row of the resolved store changes |
| JobStatusService.LastWriteWins | Application/EdFi.Ods.AdminApi/Infrastructure/Services/Jobs/JobStatusService.cs:46-50 | two successive writes for one job id leave exactly what the second wrote |
| QuartzJobBase.RunId | Application/EdFi.Ods.AdminApi.Common/Infrastructure/Jobs/AdminApiQuartzJobBase.cs:18-19 | the run id is the job name, an underscore, then the fire instance id |
| QuartzJobBase.WrapperTenant | Application/EdFi.Ods.AdminApi.Common/Infrastructure/Jobs/AdminApiQuartzJobBase.cs:20 | the status tenant is the data-map value when the key is present and the empty string otherwise |
| QuartzJobBase.RunJob | Application/EdFi.Ods.AdminApi.Common/Infrastructure/Jobs/AdminApiQuartzJobBase.cs:16-32 | two or three writes, the first InProgress; all carry the run id and the wrapper tenant and none is Pending; the last is Completed or Error, and Error whenever an exception escapes |
| QuartzJobBase.SuccessTrace | Application/EdFi.Ods.AdminApi.Common/Infrastructure/Jobs/AdminApiQuartzJobBase.cs:21-26 | when nothing throws the trace is exactly InProgress then Completed, both without a message, and nothing escapes |
| QuartzJobBase.BodyFailureTrace | Application/EdFi.Ods.AdminApi.Common/Infrastructure/Jobs/AdminApiQuartzJobBase.cs:21-31 | a body that throws gives exactly InProgress then Error carrying the exception's message; Completed is never written |
| QuartzJobBase.BeginFailureSkipsBody | Application/EdFi.Ods.AdminApi.Common/Infrastructure/Jobs/AdminApiQuartzJobBase.cs:21-31 | when the InProgress write throws the body never runs: the run does not depend on the body and records Error next |
| QuartzJobBase.CompletedFailureTrace | Application/EdFi.Ods.AdminApi.Common/Infrastructure/Jobs/AdminApiQuartzJobBase.cs:21-31 | a Completed write that throws is caught by the same handler, so the trace is InProgress, Completed, Error |
| RefreshEducationOrganizationsJob.Decide | Application/EdFi.Ods.AdminApi/Infrastructure/Services/Jobs/RefreshEducationOrganizationsJob.cs:24-55 | the instance id is forwarded whenever its key is present; no call exactly when multi-tenancy is on and the tenant key holds a null or empty name; a tenant is forwarded exactly when multi-tenancy is on and the key holds a non-empty name |
| RefreshEducationOrganizationsJob.MultiTenantWithoutTenantChangesNothing | Application/EdFi.Ods.AdminApi/Infrastructure/Services/Jobs/RefreshEducationOrganizationsJob.cs:29-55 | in multi-tenant mode the job body for a job without a usable tenant changes no database; the wrapper still writes its status rows |
| RefreshEducationOrganizationsJob.ForwardedTenantIsStatusTenant | Application/EdFi.Ods.AdminApi/Infrastructure/Services/Jobs/RefreshEducationOrganizationsJob.cs:29-40 | the tenant the job refreshes is the tenant its status rows are written under |
| RefreshEducationOrganizationsJob.JobBody | Application/EdFi.Ods.AdminApi/Infrastructure/Services/Jobs/RefreshEducationOrganizationsJob.cs:22-56 | ExecuteJobAsync as the envelope runs it: it never adds or removes a database, does nothing when the decision is not to call, and changes no database in multi-tenant mode without a tenant key |
| RefreshEducationOrganizationsJob.RunRefreshJob | Application/EdFi.Ods.AdminApi.Common/Infrastructure/Jobs/AdminApiQuartzJobBase.cs:16-32 | one scheduled run: at least two status writes under the run id, the first InProgress; with a reachable status store the run's row ends as Completed without message or as Error with the refresh's message, and no exception escapes |
| EdOrgQuery.Coalesce | Application/EdFi.Ods.AdminApi/Infrastructure/Services/EducationOrganizationService/EducationOrganizationService.cs:41 | SQL COALESCE: null exactly when every argument is null, otherwise the first non-null argument |
| EdOrgQuery.ParentId | Application/EdFi.Ods.AdminApi/Infrastructure/Services/EducationOrganizationService/EducationOrganizationService.cs:41-52 | the parent id is null exactly when all five joined candidates are null, and otherwise one of the ids the joins name |
| EdOrgQuery.SchoolParentIsItsLea | Application/EdFi.Ods.AdminApi/Infrastructure/Services/EducationOrganizationService/EducationOrganizationService.cs:41-46 | a school's parent is its local education agency whenever it has one |
| EdOrgQuery.LeaParentPriority | Application/EdFi.Ods.AdminApi/Infrastructure/Services/EducationOrganizationService/EducationOrganizationService.cs:41-49 | a local education agency's parent is its parent agency, else its service center, else its state agency |
| EdOrgQuery.TopLevelHasNoParent | Application/EdFi.Ods.AdminApi/Infrastructure/Services/EducationOrganizationService/EducationOrganizationService.cs:41-52 | an organization in none of the subtype tables has a null parent |
| EdOrgQuery.Select | Application/EdFi.Ods.AdminApi/Infrastructure/Services/EducationOrganizationService/EducationOrganizationService.cs:34-55 | result rows are at most the organization rows, all with one of the four supported discriminators |
| EdOrgQuery.SelectMembership | Application/EdFi.Ods.AdminApi/Infrastructure/Services/EducationOrganizationService/EducationOrganizationService.cs:53-54 | a result row exists exactly for each organization record of a supported kind, projected with its parent |
| EdOrgQuery.QueryReadBack | Application/EdFi.Ods.AdminApi/Infrastructure/Services/EducationOrganizationService/EducationOrganizationService.cs:34-256 | when ids fit in a long, reading back the query's rows yields exactly the query's result: the reader drops nothing well-formed |
| RowReader.ConvertCell | Application/EdFi.Ods.AdminApi/Infrastructure/Services/EducationOrganizationService/EducationOrganizationService.cs:244-253 | a database null never converts, and a converted value always fits in a long |
| RowReader.ParseRow | Application/EdFi.Ods.AdminApi/Infrastructure/Services/EducationOrganizationService/EducationOrganizationService.cs:201-232 | a row yields a result exactly when its cells convert, and the result carries the converted id and parent and the copied text columns |
| RowReader.ParseRowsAppend | Application/EdFi.Ods.AdminApi/Infrastructure/Services/EducationOrganizationService/EducationOrganizationService.cs:199-233 | the read loop distributes over concatenation of the row stream |
| RowReader.ParseRowsMembership | Application/EdFi.Ods.AdminApi/Infrastructure/Services/EducationOrganizationService/EducationOrganizationService.cs:199-233 | a result is read exactly when some row of the stream converts to it; bad rows are skipped, not fatal |
| RowReader.NullRequiredColumnDropsRow | Application/EdFi.Ods.AdminApi/Infrastructure/Services/EducationOrganizationService/EducationOrganizationService.cs:201-232 | a row with a null id, name, discriminator or guid is dropped |
| RowReader.ReadAll | Application/EdFi.Ods.AdminApi/Infrastructure/Services/EducationOrganizationService/EducationOrganizationService.cs:193-256 | the reader never throws; a stream that breaks yields a prefix of what the whole stream would, and an unbroken stream yields all of it |
| RowReader.RenderParseRoundTrip | Application/EdFi.Ods.AdminApi/Infrastructure/Services/EducationOrganizationService/EducationOrganizationService.cs:244-268 | reading a rendered result gives it back whenever its numbers fit in a long |
| RowReader.ReadBackAll | Application/EdFi.Ods.AdminApi/Infrastructure/Services/EducationOrganizationService/EducationOrganizationService.cs:193-256 | reading a rendered list of in-range results gives back the same list in the same order |
| CacheRefresh.Snapshot | Application/EdFi.Ods.AdminApi/Infrastructure/Services/EducationOrganizationService/EducationOrganizationService.cs:115-117 | the snapshot holds exactly the instance's cached ids, each mapped to its cached row |
| CacheRefresh.ApplyAll | Application/EdFi.Ods.AdminApi/Infrastructure/Services/EducationOrganizationService/EducationOrganizationService.cs:121-147 | the update-or-insert loop adds exactly the source keys, leaves every other row alone and consumes one surrogate id per new organization |
| CacheRefresh.DeleteStale | Application/EdFi.Ods.AdminApi/Infrastructure/Services/EducationOrganizationService/EducationOrganizationService.cs:149-156 | exactly the rows of the instance that were cached before and are absent from the source are removed; survivors are unchanged |
| CacheRefresh.Reconcile | Application/EdFi.Ods.AdminApi/Infrastructure/Services/EducationOrganizationService/EducationOrganizationService.cs:113-157 | other instances' rows are untouched, the instance's cached ids become exactly the source ids, and the identity counter grows by the number of new organizations |
| CacheRefresh.ReconcileWellFormed | Application/EdFi.Ods.AdminApi/Infrastructure/Services/EducationOrganizationService/EducationOrganizationService.cs:121-156 | reconciling keeps the cache well formed: rows under their business key, distinct surrogate keys below the counter |
| CacheRefresh.ReconcileContents | Application/EdFi.Ods.AdminApi/Infrastructure/Services/EducationOrganizationService/EducationOrganizationService.cs:123-146 | each source organization ends cached; one cached before keeps its row with the new name, short name, discriminator, parent and both timestamps; a new one is inserted with a fresh surrogate key, the instance's name and a null database name |
| CacheRefresh.ReconcileIdempotent | Application/EdFi.Ods.AdminApi/Infrastructure/Services/EducationOrganizationService/EducationOrganizationService.cs:113-157 | refreshing again from the same source adds and removes nothing and changes no field except the two timestamps |
| EducationOrganizationService.FirstWithId | Application/EdFi.Ods.AdminApi/Infrastructure/Services/EducationOrganizationService/EducationOrganizationService.cs:84-85 | FirstOrDefault: none exactly when no instance has the id, otherwise an instance with that id from the list |
| EducationOrganizationService.FetchSource | Application/EdFi.Ods.AdminApi/Infrastructure/Services/EducationOrganizationService/EducationOrganizationService.cs:166-191 | an unsupported engine throws NotSupported; success exactly for a supported engine and a reachable database, returning what the tolerant reader yields |
| EducationOrganizationService.RefreshInstance | Application/EdFi.Ods.AdminApi/Infrastructure/Services/EducationOrganizationService/EducationOrganizationService.cs:106-163 | a bad base-64 key throws that error; a failed decryption changes nothing and throws nothing; any throw leaves every database as it was; only the admin database's cache changes |
| EducationOrganizationService.RefreshInstanceEffect | Application/EdFi.Ods.AdminApi/Infrastructure/Services/EducationOrganizationService/EducationOrganizationService.cs:108-162 | a successful refresh leaves the instance's cached ids equal to the ids read from its ODS, with the values read, and other instances untouched |
| EducationOrganizationService.RefreshAll | Application/EdFi.Ods.AdminApi/Infrastructure/Services/EducationOrganizationService/EducationOrganizationService.cs:98-102 | the loop changes only the admin database's cache, and never the rows of instances outside the list |
| EducationOrganizationService.RefreshAllAppend | Application/EdFi.Ods.AdminApi/Infrastructure/Services/EducationOrganizationService/EducationOrganizationService.cs:99-102 | the loop over two lists is the loop over the first followed, unless it threw, by the loop over the second |
| EducationOrganizationService.ThrowAborts | Application/EdFi.Ods.AdminApi/Infrastructure/Services/EducationOrganizationService/EducationOrganizationService.cs:99-102 | an instance that throws ends the loop: later instances are never visited and the exception escapes with what earlier instances committed |
| EducationOrganizationService.RefreshAllEffect | Application/EdFi.Ods.AdminApi/Infrastructure/Services/EducationOrganizationService/EducationOrganizationService.cs:98-102 | a loop over instances with distinct ids that completes leaves the cache well formed, each instance that decrypts holding exactly the ids its ODS returned, and each instance whose decryption fails with its rows unchanged |
| EducationOrganizationService.ProcessAllEffect | Application/EdFi.Ods.AdminApi/Infrastructure/Services/EducationOrganizationService/EducationOrganizationService.cs:96-103 | a completed run without an instance id refreshes every registered instance that decrypts and leaves the others' rows alone: with instances 1, 2 and 3 and decryption failing for 2, instances 1 and 3 are refreshed and 2 is untouched |
| EducationOrganizationService.Process | Application/EdFi.Ods.AdminApi/Infrastructure/Services/EducationOrganizationService/EducationOrganizationService.cs:80-104 | an unreachable users database throws and changes nothing; an unknown requested id is a no-op; a found id refreshes exactly that instance; no id runs the loop over every registered instance; only the admin database's cache can change, and its instance and job-status tables stay as they were |
| EducationOrganizationService.Execute | Application/EdFi.Ods.AdminApi/Infrastructure/Services/EducationOrganizationService/EducationOrganizationService.cs:57-78 | a missing encryption key throws InvalidOperation, then a missing engine throws NotFound, then an unparsable engine throws its error, each changing nothing. Once the guards pass, single-tenant mode runs ProcessOdsInstanceAsync on the default users and admin databases with the requested instance id. Multi-tenant mode does nothing for a null or empty tenant. Otherwise it throws the admin or users getter's error, unchanged, or runs ProcessOdsInstanceAsync on the tenant's databases with no instance id, so every instance of the tenant is refreshed |
| EducationOrganizationService.MultiTenantIgnoresInstanceId | Application/EdFi.Ods.AdminApi/Infrastructure/Services/EducationOrganizationService/EducationOrganizationService.cs:63-73 | in multi-tenant mode the requested instance id is not forwarded, so it cannot change the outcome |
| EducationOrganizationService.UnknownTenantChangesNothing | Application/EdFi.Ods.AdminApi/Infrastructure/Services/EducationOrganizationService/EducationOrganizationService.cs:70 | an unknown tenant fails with KeyNotFound before anything is read or written |
| EducationOrganizationService.UnknownInstanceChangesNothing | Application/EdFi.Ods.AdminApi/Infrastructure/Services/EducationOrganizationService/EducationOrganizationService.cs:82-94 | a requested id that no instance has causes no change and no exception |
| GetEducationOrganizationQuery.ScanListsTable | Application/EdFi.Ods.AdminApi/Infrastructure/Database/Queries/GetEducationOrganizationQuery.cs:25-28 | Execute() lists every cached row and nothing else |
| GetEducationOrganizationQuery.ByInstance | Application/EdFi.Ods.AdminApi/Infrastructure/Database/Queries/GetEducationOrganizationQuery.cs:31-36 | a row is returned exactly when it is scanned and belongs to the requested instance |
| GetEducationOrganizationQuery.ByInstanceIsCachedInstance | Application/EdFi.Ods.AdminApi/Infrastructure/Database/Queries/GetEducationOrganizationQuery.cs:31-36 | the rows returned are the instance's cached rows, and their ids are exactly the instance's cached ids |
| GetEducationOrganizationQuery.UnknownInstanceIsEmpty | Application/EdFi.Ods.AdminApi.DBTests/Database/QueryTests/GetEducationOrganizationQueryTests.cs:55-77 | an unknown instance id, or an empty cache, gives an empty list |
| GetEducationOrganizationQuery.ReadAfterRefresh | Application/EdFi.Ods.AdminApi/Infrastructure/Database/Queries/GetEducationOrganizationQuery.cs:31-36 | after an instance's refresh, reading that instance lists exactly the organization ids the remote query returned |
| GetEducationOrganizationQuery.ByEngine | Application/EdFi.Ods.AdminApi/Infrastructure/Database/Queries/GetEducationOrganizationQuery.cs:38-86 | success exactly for an engine equal to SqlServer or PostgreSql ignoring case, with the same instance filter; any other engine throws NotSupportedException |
| GetEducationOrganizationsQuery.ColumnFor | Application/EdFi.Ods.AdminApi/Infrastructure/Database/Queries/GetEducationOrganizationsQuery.cs:45-62 | a column is found exactly when the name equals one of the six keys ignoring case, and the key found matches |
| GetEducationOrganizationsQuery.ColumnNameResolves | Application/EdFi.Ods.AdminApi/Infrastructure/Database/Queries/GetEducationOrganizationsQuery.cs:45-62 | every spelling of a column key, in any letter case, resolves to that column |
| GetEducationOrganizationsQuery.ListAll | Application/EdFi.Ods.AdminApi/Infrastructure/Database/Queries/GetEducationOrganizationsQuery.cs:65-73 | ExecuteAsync() returns a permutation of the cache ordered by instance id and then organization id |
| GetEducationOrganizationsQuery.ListAllIsDeterministic | Application/EdFi.Ods.AdminApi/Infrastructure/Database/Queries/GetEducationOrganizationsQuery.cs:67-70 | the ordered listing depends only on the table, not on the order the store scans it in |
| GetEducationOrganizationsQuery.Filter | Application/EdFi.Ods.AdminApi/Infrastructure/Database/Queries/GetEducationOrganizationsQuery.cs:83 | no instance id keeps every row; otherwise exactly the rows of that instance |
| GetEducationOrganizationsQuery.Listing | Application/EdFi.Ods.AdminApi/Infrastructure/Database/Queries/GetEducationOrganizationsQuery.cs:79-84 | the filtered rows, permuted into the order of the chosen column and direction |
| GetEducationOrganizationsQuery.ListPage | Application/EdFi.Ods.AdminApi/Infrastructure/Database/Queries/GetEducationOrganizationsQuery.cs:75-89 | the page is the contiguous run of the sorted, filtered listing that starts at the clamped offset, exactly limit rows long when that many remain and the rest of the listing when no limit is given; all rows come from the scan and the requested instance; without offset and limit, exactly the filtered rows |
| GetEducationOrganizationsQuery.FilterMultiset | Application/EdFi.Ods.AdminApi/Infrastructure/Database/Queries/GetEducationOrganizationsQuery.cs:83 | the WHERE clause keeps every row of the requested instance as often as the scan holds it, and no other row |
| GetEducationOrganizationsQuery.ListingAgreesOnId | Application/EdFi.Ods.AdminApi/Infrastructure/Database/Queries/GetEducationOrganizationsQuery.cs:82-84 | ordered by the surrogate key, any two scans of one well-formed table give the same filtered, sorted listing |
| GetEducationOrganizationsQuery.ConsecutivePages | Application/EdFi.Ods.AdminApi/Infrastructure/Database/Queries/GetEducationOrganizationsQuery.cs:82-86 | two page requests are two queries, each with its own scan of the table; ordered by the surrogate key, consecutive pages still concatenate to the larger page they span, so paging neither skips nor repeats a row |
| GetEducationOrganizationsQuery.PagesOfOneScan | Application/EdFi.Ods.AdminApi.DBTests/Database/QueryTests/GetEducationOrganizationsQueryTests.cs:46-84 | pages cut from one scan's listing tile it: the page at an offset followed by the next page of the same size is the page of twice that size |
| GetEducationOrganizationsQuery.DescendingReversesAscending | Application/EdFi.Ods.AdminApi/Infrastructure/Database/Queries/GetEducationOrganizationsQuery.cs:84 | sorted by the surrogate key, the descending listing is exactly the reverse of the ascending one |
| Ordering.SortBy | Application/EdFi.Ods.AdminApi/Infrastructure/Database/Queries/GetEducationOrganizationsQuery.cs:84 | OrderBy on a key: a permutation of the input, sorted in the requested direction |
| Ordering.SortedUnique | Application/EdFi.Ods.AdminApi/Infrastructure/Database/Queries/GetEducationOrganizationsQuery.cs:84 | when keys identify elements there is exactly one sorted arrangement of a multiset |
| Ordering.DescendingIsReversedAscending | Application/EdFi.Ods.AdminApi/Infrastructure/Database/Queries/GetEducationOrganizationsQuery.cs:84 | with identifying keys, sorting descending gives the reverse of sorting ascending |
| Ordering.Page | Application/EdFi.Ods.AdminApi/Infrastructure/Database/Queries/GetEducationOrganizationsQuery.cs:85 | a page is the contiguous run of the listing starting at the clamped offset, at most limit long, the rest of the listing when the limit is absent and the whole listing when both are absent |
| Ordering.PagesTile | Application/EdFi.Ods.AdminApi.DBTests/Database/QueryTests/GetEducationOrganizationsQueryTests.cs:46-84 | the page at o of size a followed by the page at o+a of size b is the page at o of size a+b |
| ReadEducationOrganizations.ToModel | Application/EdFi.Ods.AdminApi/Features/EducationOrganizations/ReadEducationOrganizations.cs:47-59 | the projection takes the instance name from the registry and the ids from the cached row |
| ReadEducationOrganizations.JoinMembership | Application/EdFi.Ods.AdminApi/Features/EducationOrganizations/ReadEducationOrganizations.cs:42-47 | a model is in the join exactly when it projects a cached row with a registered instance of the same id |
| ReadEducationOrganizations.GetEducationOrganizations | Application/EdFi.Ods.AdminApi/Features/EducationOrganizations/ReadEducationOrganizations.cs:38-63 | every returned model copies all the cached fields of some cached row and names a registered instance with its id |
| ReadEducationOrganizations.RowShownIffInstanceRegistered | Application/EdFi.Ods.AdminApi/Features/EducationOrganizations/ReadEducationOrganizations.cs:42-47 | a cached row shows up exactly when an instance with its instance id is registered |
| ReadEducationOrganizations.GetEducationOrganizationsByInstance | Application/EdFi.Ods.AdminApi/Features/EducationOrganizations/ReadEducationOrganizations.cs:65-92 | every returned model belongs to the requested instance |
| ReadEducationOrganizations.ByInstanceIsFilteredListing | Application/EdFi.Ods.AdminApi/Features/EducationOrganizations/ReadEducationOrganizations.cs:70-75 | filtering before the join gives the same list, in the same order, as filtering the full endpoint's answer |
| ReadInformation.ParseMode | Application/EdFi.Ods.AdminApi/Features/Information/ReadInformation.cs:32 | null never parses; otherwise the trimmed text parses to the mode whose name it equals ignoring case, and to none when it equals neither |
| ReadInformation.ParseModeName | Application/EdFi.Ods.AdminApi/Features/Information/ReadInformation.cs:32 | each mode name parses back to that mode in any letter case |
| ReadInformation.GetInformation | Application/EdFi.Ods.AdminApi/Features/Information/ReadInformation.cs:30-63 | an unparsable mode throws InvalidOperation naming the value. V1 gives V1's version and build, with no tenancy. V2 always answers unless it needs the tenants service and that service fails: it gives V2's version and build, a tenancy whose flag is the setting, and tenant names. The names are empty in single-tenant mode and the service's names, in order, in multi-tenant mode. In multi-tenant mode a service failure is the error returned |
| ReadInformation.TenancyOnlyInV2 | Application/EdFi.Ods.AdminApi/Features/Information/ReadInformation.cs:37-62 | tenancy is reported exactly in V2 mode |
| ReadInformation.SingleTenantIgnoresService | Application/EdFi.Ods.AdminApi/Features/Information/ReadInformation.cs:49-52 | in single-tenant mode the answer does not depend on the tenants service |
| ReadInformation.ModeSpellingDoesNotMatter | Application/EdFi.Ods.AdminApi/Features/Information/ReadInformation.cs:32 | mode settings equal after trimming and ignoring case give the same answer |

## Left out

- Logging: every `LogError`, `LogWarning` and `LogInformation` call is omitted; none affects state.
- The clock: `DateTime.UtcNow` is a `now` parameter. One refresh uses a single value for both timestamps of every row; the code reads the clock separately each time.
- Database I/O: connections, commands, EF Core change tracking and naming conventions are modelled as maps and sequences. A failing `SaveChangesAsync` is not modelled, and a successful one is always assumed.
- The surrogate `Id` assignment: the store's identity column is modelled as a counter. The store may skip values; the model does not.
- `DatabaseEngineEnum.Parse` is not part of this model. It is a parameter (`parseEngine`) that may fail.
- `Convert.FromBase64String` and `TryDecrypt` are not part of this model. They are parameters of the service.
- The InvalidOperationException for a null engine in `GetEducationOrganizationsAsync` (lines 168-169 of the service) is unreachable, because `Execute` already throws NotFound for a missing engine; the engine is therefore a plain string in the model.
- The NotFoundException message for a missing engine is approximated by its two name arguments.
- `reader.GetGuid`: the guid column is kept as text; only its nullness matters to the reader.
- Case-insensitive comparison folds ASCII letters only, and trimming knows only ASCII white space. Every fixed key compared in this core is ASCII. Non-ASCII input may compare differently: `Enum.TryParse` also trims U+00A0 from the API mode, and .NET folds non-ASCII letters in an `orderBy` value.
- `Enum.TryParse` also accepts numeric and comma-separated values for the API mode. The enum's numeric values are not part of this model, so only names parse, and the unreachable default branch of the mode switch is not modelled.
- `GetColumnToOrderBy`, `OrderByColumn` and `Paginate` are not part of this model. An absent or unknown sort key sorts by a `fallback` column given as a parameter. `SortingColumns.DefaultIdColumn` is taken to be "id". The page size default from the settings is not modelled: an absent limit means the rest of the listing.
- `GetEducationOrganizationsQuery.Listing` and `GetEducationOrganizationsQuery.ListPage`: on either engine the name and discriminator columns sort in the store's collation (SQL Server's column collation, PostgreSQL's database default, usually a locale collation). The model uses ordinal UTF-16 order instead. The order among rows with equal keys is not stated.
- `GetEducationOrganizationsQuery.ConsecutivePages`: is stated only for the surrogate key column. On a column with tied values (name, discriminator, instance id, refresh time), two page queries may break ties differently. A row can then appear on both pages, or on neither.
- `ReadEducationOrganizations.ByInstanceIsFilteredListing`: both endpoints are SQL joins without ORDER BY, so the store chooses the output order. The model fixes one order, cached rows in scan order and each row's registry matches in registry order. Equality "in the same order" holds for that order; the membership statements do not depend on it.
- `JobDataMap.GetInt` and `GetString` conversions: the data map holds typed values.
- Duplicate organization ids in one remote result cannot occur (primary key of edfi.EducationOrganization). The reconciliation lemmas assume this (`DistinctIds`). With duplicates the code would insert twice.
- AutoMapper's mapping to `EducationOrganizationModel` in `GetEducationOrganizationsQuery` is omitted; the query returns cache rows.
- RefreshEducationOrganizations.cs and QuartzJobScheduler.cs: job enqueueing and trigger scheduling.
- ReadTenants.cs: depends on a connection-string helper that is not part of this model.
- DefaultTenantContextInitializer.cs: depends on dictionary enumeration order.
- The tests in EducationOrganizationServiceTests.cs and ReadInformationTests.cs use signatures and properties the code no longer has; their expectations (a throw on decryption failure, a `TenantMode` string) are not encoded.

=== FILE: admin_database.dfy ===
/** The administrative database a scope (the default one, or one tenant's)
    reads and writes: its ODS instances, the education-organization cache and
    the job-status table. Databases are addressed by connection string. */
module AdminDatabase {
  import opened Base

  /** A registered remote ODS database; the core only reads it. */
  datatype OdsInstance = OdsInstance(
    odsInstanceId: int,
    name: string,
    instanceType: Option<string>,
    connectionString: string)      // encrypted at rest

  /** One cached education organization. `id` is the store-generated surrogate
      key; (instanceId, educationOrganizationId) is the business key. */
  datatype EducationOrganization = EducationOrganization(
    id: int,
    instanceId: int,
    instanceName: string,
    educationOrganizationId: int,
    nameOfInstitution: string,
    shortNameOfInstitution: Option<string>,
    discriminator: string,
    parentId: Option<int>,
    odsDatabaseName: Option<string>,
    lastModifiedDate: DateTime,
    lastRefreshed: DateTime)

  type Key = (int, int)

  function KeyOf(r: EducationOrganization): Key {
    (r.instanceId, r.educationOrganizationId)
  }

  /** The cache table, keyed by business key, with the next surrogate key the
      store will hand out. */
  datatype EdOrgTable = EdOrgTable(rows: map<Key, EducationOrganization>, nextId: int)

  /** Every row sits under its own business key, and surrogate keys are
      distinct and below the identity counter. */
  ghost predicate WellFormed(t: EdOrgTable) {
    && (forall k :: k in t.rows ==> KeyOf(t.rows[k]) == k && t.rows[k].id < t.nextId)
    && (forall k1, k2 :: k1 in t.rows && k2 in t.rows && k1 != k2 ==> t.rows[k1].id != t.rows[k2].id)
  }

  /** The ids cached for one ODS instance. */
  function InstanceIds(t: EdOrgTable, instanceId: int): set<int> {
    set k | k in t.rows && k.0 == instanceId :: k.1
  }

  /** One row of the job-status table; the table maps each job id (a run id)
      to its single row. */
  datatype JobStatusRow = JobStatusRow(status: string, errorMessage: Option<string>)

  datatype AdminDb = AdminDb(
    odsInstances: seq<OdsInstance>,
    edOrgs: EdOrgTable,
    jobStatuses: map<string, JobStatusRow>)

  /** Every administrative database reachable, by connection string. */
  type Databases = map<string, AdminDb>

  function Unreachable(connectionString: string): Exception {
    Exception(Database, "Cannot open database for connection '" + connectionString + "'.")
  }
}

=== FILE: base.dfy ===
/** Shared vocabulary: optional values, results, the exceptions the system can
    raise, and the "state plus possibly-escaping exception" shape of an
    operation that commits work before it fails. */
module Base {

  /** A nullable value. */
  datatype Option<+T> = None | Some(value: T) {
    predicate IsFailure() { None? }

    function PropagateFailure<U>(): Option<U>
      requires None?
    {
      None
    }

    function Extract(): T
      requires Some?
    {
      value
    }

    function GetOr(default: T): T {
      if Some? then value else default
    }
  }

  /** The .NET exception types the modelled code raises or lets through. */
  datatype ErrorKind =
    | InvalidOperation   // System.InvalidOperationException
    | NotFound           // NotFoundException<string> (configuration value missing)
    | NotSupported       // System.NotSupportedException
    | KeyNotFound        // System.Collections.Generic.KeyNotFoundException
    | ArgumentNull       // System.ArgumentNullException
    | Format             // System.FormatException (bad base-64 key)
    | Database           // a driver or ORM failure (connection, command, commit)
    | JobFailure         // any exception thrown by a job body

  /** An exception: its type and its Message. */
  datatype Exception = Exception(kind: ErrorKind, message: string)

  /** A computation that either yields a value or throws. */
  datatype Result<+T> = Success(value: T) | Failure(error: Exception) {
    predicate IsFailure() { Failure? }

    function PropagateFailure<U>(): Result<U>
      requires Failure?
    {
      Failure(error)
    }

    function Extract(): T
      requires Success?
    {
      value
    }
  }

  /** The state reached by an operation whose side effects persist even when it
      throws afterwards; `thrown` is the exception that escaped, if any. */
  datatype Step<S> = Step(state: S, thrown: Option<Exception>)

  /** DateTime, as a tick count. */
  type DateTime = int
}

=== FILE: edorg_listing.dfy ===
/** GetEducationOrganizationsQuery: the cache listed in a fixed order, and the
    paged listing behind the list endpoint (optional instance filter, a sort
    column chosen by name, skip/take paging). */
module GetEducationOrganizationsQuery {
  import opened Base
  import opened Text
  import opened AdminDatabase
  import opened Ordering
  import opened GetEducationOrganizationQuery

  /** The six sortable columns. */
  datatype Column =
    | EducationOrganizationIdColumn
    | NameOfInstitutionColumn
    | DiscriminatorColumn
    | InstanceIdColumn
    | LastRefreshedColumn
    | IdColumn

  /** SortingColumns.DefaultIdColumn. */
  const DefaultIdColumn: string := "id"

  /** The dictionary key each column is registered under. */
  function ColumnName(c: Column): string {
    match c
    case EducationOrganizationIdColumn => "educationOrganizationId"
    case NameOfInstitutionColumn => "nameOfInstitution"
    case DiscriminatorColumn => "discriminator"
    case InstanceIdColumn => "instanceId"
    case LastRefreshedColumn => "lastRefreshed"
    case IdColumn => DefaultIdColumn
  }

  /** Lookup in the column dictionary, which compares keys with
      OrdinalIgnoreCase. */
  function ColumnFor(name: string): (r: Option<Column>)
    ensures r.Some? ==> EqualsIgnoreCase(name, ColumnName(r.value))
    ensures r.None? <==> forall c: Column :: !EqualsIgnoreCase(name, ColumnName(c))
  {
    if EqualsIgnoreCase(name, ColumnName(EducationOrganizationIdColumn)) then Some(EducationOrganizationIdColumn)
    else if EqualsIgnoreCase(name, ColumnName(NameOfInstitutionColumn)) then Some(NameOfInstitutionColumn)
    else if EqualsIgnoreCase(name, ColumnName(DiscriminatorColumn)) then Some(DiscriminatorColumn)
    else if EqualsIgnoreCase(name, ColumnName(InstanceIdColumn)) then Some(InstanceIdColumn)
    else if EqualsIgnoreCase(name, ColumnName(LastRefreshedColumn)) then Some(LastRefreshedColumn)
    else if EqualsIgnoreCase(name, ColumnName(IdColumn)) then Some(IdColumn)
    else None
  }

  /** Every column is found under its own name, whatever the letter case of
      the request. */
  lemma {:induction false} ColumnNameResolves(c: Column, name: string)
    requires EqualsIgnoreCase(name, ColumnName(c))
    ensures ColumnFor(name) == Some(c)
  {
    assert Upper(ColumnName(EducationOrganizationIdColumn))[0] == 'E';
    assert Upper(ColumnName(NameOfInstitutionColumn))[0] == 'N';
    assert Upper(ColumnName(DiscriminatorColumn))[0] == 'D';
    assert Upper(ColumnName(InstanceIdColumn))[0] == 'I' && |ColumnName(InstanceIdColumn)| == 10;
    assert Upper(ColumnName(LastRefreshedColumn))[0] == 'L';
    assert Upper(ColumnName(IdColumn))[0] == 'I' && |ColumnName(IdColumn)| == 2;
  }

  /** The column the listing sorts on: the named one, else `fallback`. What
      GetColumnToOrderBy does for an absent or unknown name is not part of
      this model, so that choice is a parameter. */
  function ColumnToOrderBy(orderBy: Option<string>, fallback: Column): (c: Column)
    ensures orderBy.Some? && ColumnFor(orderBy.value).Some? ==> EqualsIgnoreCase(orderBy.value, ColumnName(c))
    ensures orderBy.None? ==> c == fallback
  {
    if orderBy.Some? && ColumnFor(orderBy.value).Some? then ColumnFor(orderBy.value).value else fallback
  }

  /** A string as its sequence of UTF-16 code units: ordinal order. */
  function Codes(s: string): (r: seq<int>)
    ensures |r| == |s|
    ensures forall i :: 0 <= i < |s| ==> r[i] == s[i] as int
  {
    seq(|s|, i requires 0 <= i < |s| => s[i] as int)
  }

  /** The sort key a column extracts from a row. */
  function SortKey(c: Column): EducationOrganization -> seq<int> {
    match c
    case EducationOrganizationIdColumn => (x: EducationOrganization) => [x.educationOrganizationId]
    case NameOfInstitutionColumn => (x: EducationOrganization) => Codes(x.nameOfInstitution)
    case DiscriminatorColumn => (x: EducationOrganization) => Codes(x.discriminator)
    case InstanceIdColumn => (x: EducationOrganization) => [x.instanceId]
    case LastRefreshedColumn => (x: EducationOrganization) => [x.lastRefreshed]
    case IdColumn => (x: EducationOrganization) => [x.id]
  }

  /** OrderBy(InstanceId).ThenBy(EducationOrganizationId). */
  function DefaultKey(x: EducationOrganization): seq<int> {
    [x.instanceId, x.educationOrganizationId]
  }

  /** ExecuteAsync(): every cached row, ordered by instance and then by
      organization id. */
  function ListAll(scan: seq<EducationOrganization>): (r: seq<EducationOrganization>)
    ensures multiset(r) == multiset(scan)
    ensures forall i, j :: 0 <= i < j < |r| ==>
      r[i].instanceId < r[j].instanceId ||
      (r[i].instanceId == r[j].instanceId && r[i].educationOrganizationId <= r[j].educationOrganizationId)
  {
    var r := SortBy(scan, DefaultKey, false);
    forall i, j | 0 <= i < j < |r|
      ensures r[i].instanceId < r[j].instanceId ||
        (r[i].instanceId == r[j].instanceId && r[i].educationOrganizationId <= r[j].educationOrganizationId)
    {
      assert Before(DefaultKey, false, r[i], r[j]);
      LexPair(r[i].instanceId, r[i].educationOrganizationId, r[j].instanceId, r[j].educationOrganizationId);
    }
    r
  }

  /** CommonQueryParams: offset, limit, the sort column's name and the
      direction. */
  datatype QueryParams = QueryParams(offset: Option<int>, limit: Option<int>, orderBy: Option<string>, isDescending: bool)

  /** The WHERE clause: no filter without an instance id. */
  function Filter(scan: seq<EducationOrganization>, instanceId: Option<int>): (r: seq<EducationOrganization>)
    ensures forall x :: x in r <==> x in scan && (instanceId.None? || x.instanceId == instanceId.value)
    ensures instanceId.None? ==> r == scan
  {
    if instanceId.None? then scan else ByInstance(scan, instanceId.value)
  }

  /** The whole ordered listing, before paging. */
  function Listing(scan: seq<EducationOrganization>, p: QueryParams, instanceId: Option<int>, fallback: Column)
    : (r: seq<EducationOrganization>)
    ensures multiset(r) == multiset(Filter(scan, instanceId))
    ensures Sorted(r, SortKey(ColumnToOrderBy(p.orderBy, fallback)), p.isDescending)
  {
    SortBy(Filter(scan, instanceId), SortKey(ColumnToOrderBy(p.orderBy, fallback)), p.isDescending)
  }

  /** ExecuteAsync(commonQueryParams, instanceId): filter, then sort, then
      skip and take. */
  function ListPage(scan: seq<EducationOrganization>, p: QueryParams, instanceId: Option<int>, fallback: Column)
    : (r: seq<EducationOrganization>)
    ensures p.limit.Some? ==> |r| <= if p.limit.value < 0 then 0 else p.limit.value
    ensures forall x :: x in r ==> x in scan && (instanceId.None? || x.instanceId == instanceId.value)
    ensures Sorted(r, SortKey(ColumnToOrderBy(p.orderBy, fallback)), p.isDescending)
    ensures p.offset.None? && p.limit.None? ==> multiset(r) == multiset(Filter(scan, instanceId))
    ensures var all := Listing(scan, p, instanceId, fallback);
      var lo := PageStart(|all|, p.offset);
      && lo + |r| <= |all| && r == all[lo..lo + |r|]
      && (p.limit.Some? && p.limit.value >= 0 && lo + p.limit.value <= |all| ==> |r| == p.limit.value)
      && (p.limit.None? ==> |r| == |all| - lo)
  {
    var all := Listing(scan, p, instanceId, fallback);
    PageWithin(all, p.offset, p.limit);
    ListingWithinFilter(scan, p, instanceId, fallback);
    Page(all, p.offset, p.limit)
  }

  lemma ListingWithinFilter(scan: seq<EducationOrganization>, p: QueryParams, instanceId: Option<int>, fallback: Column)
    ensures forall x :: x in Listing(scan, p, instanceId, fallback) ==> x in Filter(scan, instanceId)
  {
    var all := Listing(scan, p, instanceId, fallback);
    forall x | x in all
      ensures x in Filter(scan, instanceId)
    {
      assert x in multiset(all);
    }
  }

  /** Pages cut from one listing tile it: the page at `offset` followed by
      the next page of the same size is the page of twice that size. */
  lemma PagesOfOneScan(scan: seq<EducationOrganization>, ordering: Option<string>, descending: bool,
                         instanceId: Option<int>, fallback: Column, offset: nat, limit: nat)
    ensures var page := (o: nat, l: nat) => ListPage(scan, QueryParams(Some(o), Some(l), ordering, descending), instanceId, fallback);
      page(offset, limit) + page(offset + limit, limit) == page(offset, limit + limit)
  {
    var all := Listing(scan, QueryParams(None, None, ordering, descending), instanceId, fallback);
    PagesTile(all, offset, limit, limit);
  }

  /** Rows of one table scan are identified by their business key. */
  lemma DefaultKeyIdentifiesRows(scan: seq<EducationOrganization>, t: EdOrgTable)
    requires IsScanOf(scan, t)
    ensures KeyInjective(multiset(scan), DefaultKey)
  {
    forall x, y | x in multiset(scan) && y in multiset(scan) && DefaultKey(x) == DefaultKey(y)
      ensures x == y
    {
      var i :| 0 <= i < |scan| && scan[i] == x;
      var j :| 0 <= j < |scan| && scan[j] == y;
      assert DefaultKey(x)[0] == DefaultKey(y)[0] && DefaultKey(x)[1] == DefaultKey(y)[1];
      assert KeyOf(x) == KeyOf(y);
    }
  }

  /** A sequence without repeats holds each member once. */
  lemma {:induction false} CountOfDistinct(s: seq<EducationOrganization>, x: EducationOrganization)
    requires forall i, j :: 0 <= i < j < |s| ==> KeyOf(s[i]) != KeyOf(s[j])
    ensures multiset(s)[x] == if x in s then 1 else 0
    decreases |s|
  {
    if |s| > 0 {
      assert s == [s[0]] + s[1..];
      CountOfDistinct(s[1..], x);
      if x == s[0] {
        assert x !in s[1..] by {
          forall j | 0 <= j < |s[1..]|
            ensures s[1..][j] != x
          {
            assert KeyOf(s[0]) != KeyOf(s[j + 1]);
          }
        }
      }
    }
  }

  /** Two scans of the same table hold the same rows. */
  lemma ScansAgree(s1: seq<EducationOrganization>, s2: seq<EducationOrganization>, t: EdOrgTable)
    requires IsScanOf(s1, t) && IsScanOf(s2, t)
    ensures multiset(s1) == multiset(s2)
  {
    ScanListsTable(s1, t);
    ScanListsTable(s2, t);
    forall x
      ensures multiset(s1)[x] == multiset(s2)[x]
    {
      CountOfDistinct(s1, x);
      CountOfDistinct(s2, x);
    }
  }

  /** ExecuteAsync() is fully determined by the table: whatever order the
      store scans the rows in, the listing is the same. */
  lemma ListAllIsDeterministic(s1: seq<EducationOrganization>, s2: seq<EducationOrganization>, t: EdOrgTable)
    requires IsScanOf(s1, t) && IsScanOf(s2, t)
    ensures ListAll(s1) == ListAll(s2)
  {
    ScansAgree(s1, s2, t);
    DefaultKeyIdentifiesRows(s1, t);
    SortedUnique(ListAll(s1), ListAll(s2), DefaultKey, false);
  }

  /** On a well-formed cache, surrogate keys identify rows. */
  lemma IdIdentifiesRows(scan: seq<EducationOrganization>, t: EdOrgTable)
    requires WellFormed(t) && IsScanOf(scan, t)
    ensures KeyInjective(multiset(scan), SortKey(IdColumn))
  {
    forall x, y | x in multiset(scan) && y in multiset(scan) && SortKey(IdColumn)(x) == SortKey(IdColumn)(y)
      ensures x == y
    {
      var i :| 0 <= i < |scan| && scan[i] == x;
      var j :| 0 <= j < |scan| && scan[j] == y;
      assert SortKey(IdColumn)(x)[0] == SortKey(IdColumn)(y)[0];
      assert KeyOf(x) in t.rows && KeyOf(y) in t.rows;
    }
  }

  /** Sorting by the surrogate key descending lists the rows in exactly the
      reverse of the ascending order. */
  lemma DescendingReversesAscending(scan: seq<EducationOrganization>, t: EdOrgTable, instanceId: Option<int>,
                                    orderBy: Option<string>, fallback: Column)
    requires WellFormed(t) && IsScanOf(scan, t)
    requires ColumnToOrderBy(orderBy, fallback) == IdColumn
    ensures Listing(scan, QueryParams(None, None, orderBy, true), instanceId, fallback) ==
            Reverse(Listing(scan, QueryParams(None, None, orderBy, false), instanceId, fallback))
  {
    IdIdentifiesRows(scan, t);
    var f := Filter(scan, instanceId);
    assert KeyInjective(multiset(f), SortKey(IdColumn)) by {
      forall x | x in multiset(f)
        ensures x in multiset(scan)
      {
      }
    }
    DescendingIsReversedAscending(f, SortKey(IdColumn));
  }

  /** The WHERE clause keeps each row of the instance as often as the scan
      holds it, and no other row. */
  lemma {:induction false} FilterMultiset(s: seq<EducationOrganization>, instanceId: Option<int>)
    ensures forall x :: multiset(Filter(s, instanceId))[x] ==
                        if instanceId.None? || x.instanceId == instanceId.value then multiset(s)[x] else 0
    decreases |s|
  {
    if instanceId.Some? && |s| > 0 {
      var id := instanceId.value;
      FilterMultiset(s[1..], instanceId);
      assert s == [s[0]] + s[1..];
      assert ByInstance(s, id) == (if s[0].instanceId == id then [s[0]] else []) + ByInstance(s[1..], id);
    }
  }

  /** Filtering two arrangements of the same rows gives arrangements of the
      same rows. */
  lemma FilterSameRows(s1: seq<EducationOrganization>, s2: seq<EducationOrganization>, instanceId: Option<int>)
    requires multiset(s1) == multiset(s2)
    ensures multiset(Filter(s1, instanceId)) == multiset(Filter(s2, instanceId))
  {
    FilterMultiset(s1, instanceId);
    FilterMultiset(s2, instanceId);
    forall x
      ensures multiset(Filter(s1, instanceId))[x] == multiset(Filter(s2, instanceId))[x]
    {
    }
  }

  /** Surrogate keys identify the rows of a filtered scan. */
  lemma FilterIdIdentifiesRows(s: seq<EducationOrganization>, instanceId: Option<int>)
    requires KeyInjective(multiset(s), SortKey(IdColumn))
    ensures KeyInjective(multiset(Filter(s, instanceId)), SortKey(IdColumn))
  {
    forall x | x in multiset(Filter(s, instanceId))
      ensures x in multiset(s)
    {
    }
  }

  /** Sorted by the surrogate key, two scans of one well-formed table give
      the same listing. */
  lemma ListingAgreesOnId(s1: seq<EducationOrganization>, s2: seq<EducationOrganization>, t: EdOrgTable,
                          p: QueryParams, instanceId: Option<int>, fallback: Column)
    requires WellFormed(t) && IsScanOf(s1, t) && IsScanOf(s2, t)
    requires ColumnToOrderBy(p.orderBy, fallback) == IdColumn
    ensures Listing(s1, p, instanceId, fallback) == Listing(s2, p, instanceId, fallback)
  {
    ScansAgree(s1, s2, t);
    IdIdentifiesRows(s1, t);
    FilterSameRows(s1, s2, instanceId);
    FilterIdIdentifiesRows(s1, instanceId);
    SortedUnique(Listing(s1, p, instanceId, fallback), Listing(s2, p, instanceId, fallback),
                 SortKey(IdColumn), p.isDescending);
  }

  /** Two requests for consecutive pages are two queries, each scanning the
      table afresh. Ordered by the surrogate key, which identifies rows, they
      still concatenate to the larger page they span: paging neither skips
      nor repeats a row, whatever order each scan returns. */
  lemma ConsecutivePages(s1: seq<EducationOrganization>, s2: seq<EducationOrganization>, t: EdOrgTable,
                         ordering: Option<string>, descending: bool, instanceId: Option<int>, fallback: Column,
                         offset: nat, limit: nat)
    requires WellFormed(t) && IsScanOf(s1, t) && IsScanOf(s2, t)
    requires ColumnToOrderBy(ordering, fallback) == IdColumn
    ensures ListPage(s1, QueryParams(Some(offset), Some(limit), ordering, descending), instanceId, fallback)
          + ListPage(s2, QueryParams(Some(offset + limit), Some(limit), ordering, descending), instanceId, fallback)
         == ListPage(s1, QueryParams(Some(offset), Some(limit + limit), ordering, descending), instanceId, fallback)
  {
    var p := QueryParams(None, None, ordering, descending);
    ListingAgreesOnId(s1, s2, t, p, instanceId, fallback);
    PagesOfOneScan(s1, ordering, descending, instanceId, fallback, offset, limit);
    assert ListPage(s2, QueryParams(Some(offset + limit), Some(limit), ordering, descending), instanceId, fallback)
        == ListPage(s1, QueryParams(Some(offset + limit), Some(limit), ordering, descending), instanceId, fallback);
  }
}

=== FILE: edorg_lookup.dfy ===
/** GetEducationOrganizationQuery: reads of the education-organization cache,
    whole or for one ODS instance, through the ambient context or through a
    context opened for a named engine. */
module GetEducationOrganizationQuery {
  import opened Base
  import opened AdminDatabase
  import opened Text
  import opened DatabaseEngines
  import RowReader
  import CacheRefresh

  /** A table scan: the rows the store hands back for the cache table, each
      once, in an order the store chooses. */
  ghost predicate IsScanOf(scan: seq<EducationOrganization>, t: EdOrgTable) {
    && (forall i :: 0 <= i < |scan| ==> KeyOf(scan[i]) in t.rows && t.rows[KeyOf(scan[i])] == scan[i])
    && (forall k :: k in t.rows ==> exists i :: 0 <= i < |scan| && KeyOf(scan[i]) == k)
    && (forall i, j :: 0 <= i < j < |scan| ==> KeyOf(scan[i]) != KeyOf(scan[j]))
  }

  /** Execute(): every cached row and nothing else. */
  lemma ScanListsTable(scan: seq<EducationOrganization>, t: EdOrgTable)
    requires IsScanOf(scan, t)
    ensures forall x :: x in scan <==> x in t.rows.Values
  {
    forall x | x in t.rows.Values
      ensures x in scan
    {
      var k :| k in t.rows && t.rows[k] == x;
      var i :| 0 <= i < |scan| && KeyOf(scan[i]) == k;
    }
  }

  /** Execute(odsInstanceId): the scan filtered on the instance id, in scan
      order. */
  function ByInstance(scan: seq<EducationOrganization>, odsInstanceId: int): (r: seq<EducationOrganization>)
    ensures forall x :: x in r <==> x in scan && x.instanceId == odsInstanceId
    ensures |r| <= |scan|
  {
    if |scan| == 0 then []
    else
      assert scan == [scan[0]] + scan[1..];
      (if scan[0].instanceId == odsInstanceId then [scan[0]] else []) + ByInstance(scan[1..], odsInstanceId)
  }

  /** The rows returned for an instance are exactly the cached rows of that
      instance: their organization ids are the instance's cached ids. */
  lemma ByInstanceIsCachedInstance(scan: seq<EducationOrganization>, t: EdOrgTable, odsInstanceId: int)
    requires IsScanOf(scan, t)
    ensures forall x :: x in ByInstance(scan, odsInstanceId) ==> t.rows[KeyOf(x)] == x
    ensures IdsOf(ByInstance(scan, odsInstanceId)) == InstanceIds(t, odsInstanceId)
  {
    var r := ByInstance(scan, odsInstanceId);
    forall x | x in r
      ensures t.rows[KeyOf(x)] == x
    {
      var i :| 0 <= i < |scan| && scan[i] == x;
    }
    forall id | id in InstanceIds(t, odsInstanceId)
      ensures id in IdsOf(r)
    {
      var i :| 0 <= i < |scan| && KeyOf(scan[i]) == (odsInstanceId, id);
      assert scan[i] in r;
    }
    forall x | x in r
      ensures x.educationOrganizationId in InstanceIds(t, odsInstanceId)
    {
      var i :| 0 <= i < |scan| && scan[i] == x;
      assert KeyOf(x) in t.rows;
    }
  }

  /** The organization ids a list of cached rows holds. */
  function IdsOf(r: seq<EducationOrganization>): set<int> {
    set x | x in r :: x.educationOrganizationId
  }

  lemma FirstIdListed(r: seq<EducationOrganization>)
    ensures |r| > 0 ==> r[0].educationOrganizationId in IdsOf(r)
  {
    if |r| > 0 {
      assert r[0] in r;
    }
  }

  /** An unknown instance id, or an empty cache, gives an empty list. */
  lemma UnknownInstanceIsEmpty(scan: seq<EducationOrganization>, t: EdOrgTable, odsInstanceId: int)
    requires IsScanOf(scan, t)
    requires InstanceIds(t, odsInstanceId) == {}
    ensures ByInstance(scan, odsInstanceId) == []
  {
    ByInstanceIsCachedInstance(scan, t, odsInstanceId);
    var r := ByInstance(scan, odsInstanceId);
    FirstIdListed(r);
  }

  /** After an instance's refresh, reading that instance back lists exactly
      the organizations the remote query returned. */
  lemma ReadAfterRefresh(t: EdOrgTable, inst: OdsInstance, src: seq<RowReader.EdOrgResult>, now: DateTime,
                         scan: seq<EducationOrganization>)
    requires IsScanOf(scan, CacheRefresh.Reconcile(t, inst, src, now))
    ensures IdsOf(ByInstance(scan, inst.odsInstanceId)) == CacheRefresh.SourceIds(src)
  {
    ByInstanceIsCachedInstance(scan, CacheRefresh.Reconcile(t, inst, src, now), inst.odsInstanceId);
  }

  /** Execute(databaseEngine, adminConnectionString, odsInstanceId): the same
      filter over the database the connection string names, read through a
      context for the matched engine; any other engine throws
      NotSupportedException. `scan` is that database's table scan. */
  function ByEngine(databaseEngine: string, scan: seq<EducationOrganization>, odsInstanceId: int)
    : (r: Result<seq<EducationOrganization>>)
    ensures r.Success? <==> exists k: EngineKind :: EqualsIgnoreCase(databaseEngine, Name(k))
    ensures r.Success? ==> forall x :: x in r.value <==> x in scan && x.instanceId == odsInstanceId
    ensures r.Failure? ==> r.error.kind == NotSupported && r.error == UnsupportedEngine(databaseEngine)
  {
    match Match(databaseEngine)
    case Some(_) => Success(ByInstance(scan, odsInstanceId))
    case None => Failure(UnsupportedEngine(databaseEngine))
  }
}

=== FILE: edorg_query.dfy ===
/** The query run against every remote ODS database: each education
    organization of the four supported kinds, with its parent found through
    the school, local education agency and education service center tables. */
module EdOrgQuery {
  import opened Base
  import opened RowReader

  /** edfi.EducationOrganization: the columns the query selects. */
  datatype EdOrgRecord = EdOrgRecord(
    educationOrganizationId: int,
    nameOfInstitution: string,
    shortNameOfInstitution: Option<string>,
    discriminator: string,
    id: string)

  /** edfi.LocalEducationAgency: the three nullable references the query reads. */
  datatype LeaRecord = LeaRecord(
    parentLocalEducationAgencyId: Option<int>,
    educationServiceCenterId: Option<int>,
    stateEducationAgencyId: Option<int>)

  /** The tables the query joins. The subtype tables are keyed by their
      primary key; a school maps to its local education agency and an
      education service center to its state education agency. */
  datatype OdsData = OdsData(
    educationOrganizations: seq<EdOrgRecord>,
    schools: map<int, Option<int>>,
    localEducationAgencies: map<int, LeaRecord>,
    educationServiceCenters: map<int, Option<int>>)

  /** The WHERE clause's discriminator list. */
  const Supported: set<string> :=
    {"edfi.StateEducationAgency", "edfi.EducationServiceCenter", "edfi.LocalEducationAgency", "edfi.School"}

  /** SQL COALESCE: the first non-null argument, or null when all are null. */
  function Coalesce(xs: seq<Option<int>>): (r: Option<int>)
    ensures r.None? <==> forall i :: 0 <= i < |xs| ==> xs[i].None?
    ensures r.Some? ==> exists i :: 0 <= i < |xs| && xs[i] == r && forall j :: 0 <= j < i ==> xs[j].None?
  {
    if |xs| == 0 then None
    else if xs[0].Some? then xs[0]
    else
      var r := Coalesce(xs[1..]);
      assert forall i :: 1 <= i < |xs| ==> xs[i] == xs[1..][i - 1];
      r
  }

  /** COALESCE returns the argument at a position whenever every argument
      before it is null and it is not. */
  lemma CoalescePicks(xs: seq<Option<int>>, k: int)
    requires 0 <= k < |xs| && xs[k].Some?
    requires forall j :: 0 <= j < k ==> xs[j].None?
    ensures Coalesce(xs) == xs[k]
  {
  }

  /** The LEFT JOINs: the school's, the agency's and the center's columns,
      each null when the organization has no row in that table. */
  function SchoolLea(d: OdsData, id: int): Option<int> {
    if id in d.schools then d.schools[id] else None
  }

  function Lea(d: OdsData, id: int): LeaRecord {
    if id in d.localEducationAgencies then d.localEducationAgencies[id] else LeaRecord(None, None, None)
  }

  function EscSea(d: OdsData, id: int): Option<int> {
    if id in d.educationServiceCenters then d.educationServiceCenters[id] else None
  }

  /** The COALESCE arguments in the query's order. */
  function ParentCandidates(d: OdsData, id: int): (c: seq<Option<int>>)
    ensures |c| == 5
  {
    [SchoolLea(d, id), Lea(d, id).parentLocalEducationAgencyId, Lea(d, id).educationServiceCenterId,
     Lea(d, id).stateEducationAgencyId, EscSea(d, id)]
  }

  /** The parentid column. */
  function ParentId(d: OdsData, id: int): (p: Option<int>)
    ensures p.None? <==> forall i :: 0 <= i < 5 ==> ParentCandidates(d, id)[i].None?
    ensures p.Some? ==> p.value in ParentReferences(d, id)
  {
    Coalesce(ParentCandidates(d, id))
  }

  /** Every organization the joined tables name as a possible parent. */
  function ParentReferences(d: OdsData, id: int): set<int> {
    set i | 0 <= i < 5 && ParentCandidates(d, id)[i].Some? :: ParentCandidates(d, id)[i].value
  }

  /** A school's parent is its local education agency whenever it names one. */
  lemma SchoolParentIsItsLea(d: OdsData, id: int)
    requires id in d.schools && d.schools[id].Some?
    ensures ParentId(d, id) == d.schools[id]
  {
  }

  /** For a local education agency that is not a school, the parent is the
      parent agency, else the service center, else the state agency. */
  lemma LeaParentPriority(d: OdsData, id: int)
    requires id !in d.schools && id in d.localEducationAgencies
    ensures var lea := d.localEducationAgencies[id];
      && (lea.parentLocalEducationAgencyId.Some? ==> ParentId(d, id) == lea.parentLocalEducationAgencyId)
      && (lea.parentLocalEducationAgencyId.None? && lea.educationServiceCenterId.Some? ==>
            ParentId(d, id) == lea.educationServiceCenterId)
      && (lea.parentLocalEducationAgencyId.None? && lea.educationServiceCenterId.None? && lea.stateEducationAgencyId.Some? ==>
            ParentId(d, id) == lea.stateEducationAgencyId)
  {
    var c := ParentCandidates(d, id);
    if c[1].Some? {
      CoalescePicks(c, 1);
    } else if c[2].Some? {
      CoalescePicks(c, 2);
    } else if c[3].Some? {
      CoalescePicks(c, 3);
    }
  }

  /** An organization in none of the subtype tables (a state education agency)
      has no parent. */
  lemma TopLevelHasNoParent(d: OdsData, id: int)
    requires id !in d.schools && id !in d.localEducationAgencies && id !in d.educationServiceCenters
    ensures ParentId(d, id).None?
  {
  }

  function Project(d: OdsData, e: EdOrgRecord): (x: EdOrgResult)
    ensures x.educationOrganizationId == e.educationOrganizationId && x.parentId == ParentId(d, e.educationOrganizationId)
  {
    EdOrgResult(e.educationOrganizationId, e.nameOfInstitution, e.shortNameOfInstitution, e.discriminator, e.id,
                ParentId(d, e.educationOrganizationId))
  }

  /** The WHERE filter and the SELECT list over a run of records, in table
      order. */
  function Select(d: OdsData, es: seq<EdOrgRecord>): (r: seq<EdOrgResult>)
    ensures |r| <= |es|
    ensures forall i :: 0 <= i < |r| ==> r[i].discriminator in Supported
  {
    if |es| == 0 then []
    else (if es[0].discriminator in Supported then [Project(d, es[0])] else []) + Select(d, es[1..])
  }

  /** The query's result set. */
  function QueryResults(d: OdsData): (r: seq<EdOrgResult>)
    ensures |r| <= |d.educationOrganizations|
    ensures forall i :: 0 <= i < |r| ==> r[i].discriminator in Supported
  {
    Select(d, d.educationOrganizations)
  }

  /** A result row exists exactly for each supported organization record. */
  lemma {:induction false} SelectMembership(d: OdsData, es: seq<EdOrgRecord>, x: EdOrgResult)
    ensures x in Select(d, es) <==>
      exists i :: 0 <= i < |es| && es[i].discriminator in Supported && Project(d, es[i]) == x
    decreases |es|
  {
    if |es| > 0 {
      SelectMembership(d, es[1..], x);
      if x in Select(d, es[1..]) {
        var i :| 0 <= i < |es[1..]| && es[1..][i].discriminator in Supported && Project(d, es[1..][i]) == x;
        assert es[i + 1] == es[1..][i];
      }
      if exists i :: 0 <= i < |es| && es[i].discriminator in Supported && Project(d, es[i]) == x {
        var i :| 0 <= i < |es| && es[i].discriminator in Supported && Project(d, es[i]) == x;
        if i > 0 {
          assert es[1..][i - 1] == es[i];
        }
      }
    }
  }

  /** What the driver hands the reader for this data. */
  function QueryRows(d: OdsData): (rows: seq<RawRow>)
    ensures |rows| == |QueryResults(d)|
  {
    RenderAll(QueryResults(d))
  }

  /** Every id the query can produce fits in a long. Ed-Fi identifiers are
      32-bit, so this holds for any real ODS. */
  predicate IdsInRange(d: OdsData) {
    && (forall i :: 0 <= i < |d.educationOrganizations| ==> Int64.InLongRange(d.educationOrganizations[i].educationOrganizationId))
    && (forall i :: 0 <= i < |d.educationOrganizations| ==>
          ParentId(d, d.educationOrganizations[i].educationOrganizationId).Some? ==>
          Int64.InLongRange(ParentId(d, d.educationOrganizations[i].educationOrganizationId).value))
  }

  /** Reading the query's rows back gives exactly the query's results: no
      well-formed organization is dropped by the reader. */
  lemma QueryReadBack(d: OdsData)
    requires IdsInRange(d)
    ensures ParseRows(QueryRows(d)) == QueryResults(d)
  {
    var r := QueryResults(d);
    forall k | 0 <= k < |r|
      ensures InRange(r[k])
    {
      SelectMembership(d, d.educationOrganizations, r[k]);
    }
    ReadBackAll(r);
  }
}

=== FILE: engines.dfy ===
/** The two database engines the system supports and the case-insensitive
    string dispatch every engine-dependent component repeats. */
module DatabaseEngines {
  import opened Base
  import opened Text

  datatype EngineKind = SqlServer | PostgreSql

  /** DatabaseEngineEnum.SqlServer and DatabaseEngineEnum.PostgreSql. */
  function Name(k: EngineKind): string {
    match k
    case SqlServer => "SqlServer"
    case PostgreSql => "PostgreSql"
  }

  /** `engine.Equals(DatabaseEngineEnum.X, StringComparison.OrdinalIgnoreCase)`,
      tried for SqlServer first and PostgreSql second. */
  function Match(engine: string): (r: Option<EngineKind>)
    ensures r.Some? ==> EqualsIgnoreCase(engine, Name(r.value))
    ensures r.None? <==> forall k: EngineKind :: !EqualsIgnoreCase(engine, Name(k))
  {
    if EqualsIgnoreCase(engine, Name(SqlServer)) then Some(SqlServer)
    else if EqualsIgnoreCase(engine, Name(PostgreSql)) then Some(PostgreSql)
    else None
  }

  /** The NotSupportedException every dispatch raises for any other engine. */
  function UnsupportedEngine(engine: string): (e: Exception)
    ensures e.kind == NotSupported
  {
    Exception(NotSupported, "Database engine '" + engine + "' is not supported.")
  }

  /** Each engine's own name is recognised, and the spelling of letters does
      not matter: two names equal up to case dispatch to the same engine. */
  lemma MatchIsCaseInsensitive(a: string, b: string)
    requires EqualsIgnoreCase(a, b)
    ensures Match(a) == Match(b)
  {
  }

  lemma {:induction false} MatchName(k: EngineKind)
    ensures Match(Name(k)) == Some(k)
  {
    match k
    case SqlServer =>
    case PostgreSql =>
      assert Upper(Name(PostgreSql))[0] == 'P';
      assert Upper(Name(SqlServer))[0] == 'S';
  }
}

=== FILE: information.dfy ===
/** ReadInformation: the anonymous information endpoint, reporting the
    version and build of the configured API mode and, in V2 mode, the tenancy
    setting and the tenant names. */
module ReadInformation {
  import opened Base
  import opened Text

  datatype AdminApiMode = V1 | V2

  function ModeName(m: AdminApiMode): string {
    match m
    case V1 => "V1"
    case V2 => "V2"
  }

  /** Enum.TryParse with ignoreCase: a null value fails; otherwise the value
      is trimmed and compared with each member name ignoring case. */
  function ParseMode(value: Option<string>): (r: Option<AdminApiMode>)
    ensures value.None? ==> r.None?
    ensures r.Some? ==> value.Some? && EqualsIgnoreCase(Trim(value.value), ModeName(r.value))
    ensures value.Some? && r.None? ==> forall m: AdminApiMode :: !EqualsIgnoreCase(Trim(value.value), ModeName(m))
  {
    if value.None? then None
    else if EqualsIgnoreCase(Trim(value.value), ModeName(V1)) then Some(V1)
    else if EqualsIgnoreCase(Trim(value.value), ModeName(V2)) then Some(V2)
    else None
  }

  /** A mode's name parses back to that mode, in any letter case. */
  lemma {:induction false} ParseModeName(m: AdminApiMode, s: string)
    requires EqualsIgnoreCase(s, ModeName(m))
    ensures ParseMode(Some(s)) == Some(m)
  {
    EqualsIgnoreCaseCharwise(s, ModeName(m));
    assert UpperChar(s[1]) == ModeName(m)[1];
    assert !IsWhite(s[0]) && !IsWhite(s[1]);
    assert TrimStart(s) == s;
    assert TrimEnd(s) == s;
    assert ModeName(V1)[1] != ModeName(V2)[1];
  }

  /** TenantModel, as far as the endpoint reads it. */
  datatype TenantModel = TenantModel(tenantName: string)

  datatype TenancyResult = TenancyResult(multitenantMode: bool, tenants: seq<string>)

  /** The response; `tenancy` is omitted from the JSON when null. */
  datatype InformationResult = InformationResult(version: string, build: string, tenancy: Option<TenancyResult>)

  /** The version and build constants of one API generation. */
  datatype BuildInfo = BuildInfo(version: string, build: string)

  /** The names of the tenants, in the order the tenants service lists them. */
  function TenantNames(ts: seq<TenantModel>): (r: seq<string>)
    ensures |r| == |ts|
    ensures forall i :: 0 <= i < |ts| ==> r[i] == ts[i].tenantName
  {
    seq(|ts|, i requires 0 <= i < |ts| => ts[i].tenantName)
  }

  function InvalidMode(value: Option<string>): Exception {
    Exception(InvalidOperation, "Invalid adminApiMode: " + value.GetOr(""))
  }

  /** GetInformation. `tenantsService` is what GetTenantsAsync returns or
      throws; it is only consulted in V2 multi-tenant mode. */
  function GetInformation(adminApiMode: Option<string>, multiTenancy: bool, tenantsService: Result<seq<TenantModel>>,
                          v1: BuildInfo, v2: BuildInfo): (r: Result<InformationResult>)
    ensures ParseMode(adminApiMode).None? ==> r == Failure(InvalidMode(adminApiMode))
    ensures ParseMode(adminApiMode) == Some(V1) ==> r == Success(InformationResult(v1.version, v1.build, None))
    ensures ParseMode(adminApiMode) == Some(V2) && r.Success? ==>
      && r.value.version == v2.version && r.value.build == v2.build
      && r.value.tenancy.Some? && r.value.tenancy.value.multitenantMode == multiTenancy
    ensures ParseMode(adminApiMode) == Some(V2) && (!multiTenancy || tenantsService.Success?) ==> r.Success?
    ensures ParseMode(adminApiMode) == Some(V2) && multiTenancy && tenantsService.Failure? ==>
              r == Failure(tenantsService.error)
    ensures r.Failure? ==> r.error.kind == InvalidOperation || (multiTenancy && tenantsService.Failure? && r.error == tenantsService.error)
    ensures r.Success? && r.value.tenancy.Some? && !multiTenancy ==> r.value.tenancy.value.tenants == []
    ensures r.Success? && r.value.tenancy.Some? && multiTenancy ==>
      tenantsService.Success? && r.value.tenancy.value.tenants == TenantNames(tenantsService.value)
  {
    match ParseMode(adminApiMode)
    case None => Failure(InvalidMode(adminApiMode))
    case Some(V1) => Success(InformationResult(v1.version, v1.build, None))
    case Some(V2) =>
      var names :- if multiTenancy then
                     (match tenantsService
                      case Success(ts) => Success(TenantNames(ts))
                      case Failure(e) => Failure(e))
                   else Success([]);
      Success(InformationResult(v2.version, v2.build, Some(TenancyResult(multiTenancy, names))))
  }

  /** Tenancy is reported exactly in V2 mode. */
  lemma TenancyOnlyInV2(adminApiMode: Option<string>, multiTenancy: bool, tenantsService: Result<seq<TenantModel>>,
                        v1: BuildInfo, v2: BuildInfo)
    requires GetInformation(adminApiMode, multiTenancy, tenantsService, v1, v2).Success?
    ensures GetInformation(adminApiMode, multiTenancy, tenantsService, v1, v2).value.tenancy.Some? <==>
            ParseMode(adminApiMode) == Some(V2)
  {
  }

  /** In single-tenant mode the answer does not depend on the tenants
      service at all, so the service need not be called. */
  lemma SingleTenantIgnoresService(adminApiMode: Option<string>, a: Result<seq<TenantModel>>, b: Result<seq<TenantModel>>,
                                   v1: BuildInfo, v2: BuildInfo)
    ensures GetInformation(adminApiMode, false, a, v1, v2) == GetInformation(adminApiMode, false, b, v1, v2)
  {
  }

  /** The mode setting's letter case and surrounding white space do not
      matter. */
  lemma ModeSpellingDoesNotMatter(a: string, b: string, multiTenancy: bool, tenantsService: Result<seq<TenantModel>>,
                                  v1: BuildInfo, v2: BuildInfo)
    requires EqualsIgnoreCase(Trim(a), Trim(b))
    ensures GetInformation(Some(a), multiTenancy, tenantsService, v1, v2).Success? ==>
            GetInformation(Some(b), multiTenancy, tenantsService, v1, v2) ==
            GetInformation(Some(a), multiTenancy, tenantsService, v1, v2)
  {
  }
}

=== FILE: int64.dfy ===
/** long.TryParse (NumberStyles.Integer) and Int64.ToString, the two conversions
    a cache-refresh row goes through: the driver renders a numeric column as
    text and the row reader parses it back into a 64-bit id. */
module Int64 {
  import opened Base
  import opened Text

  const MinLong: int := -0x8000_0000_0000_0000
  const MaxLong: int := 0x7FFF_FFFF_FFFF_FFFF

  predicate InLongRange(n: int) {
    MinLong <= n <= MaxLong
  }

  predicate IsDigit(c: char) {
    '0' <= c <= '9'
  }

  predicate AllDigits(s: string) {
    forall i :: 0 <= i < |s| ==> IsDigit(s[i])
  }

  function DigitValue(c: char): (d: nat)
    requires IsDigit(c)
    ensures d < 10
  {
    c as int - '0' as int
  }

  function DigitChar(d: nat): (c: char)
    requires d < 10
    ensures IsDigit(c) && DigitValue(c) == d
  {
    ('0' as int + d) as char
  }

  /** The value of a string of decimal digits, most significant first. */
  function DigitsValue(s: string): nat
    requires AllDigits(s)
  {
    if |s| == 0 then 0 else DigitsValue(s[..|s| - 1]) * 10 + DigitValue(s[|s| - 1])
  }

  /** The sign-and-digits core of an integer literal, after trimming. */
  function SignedDigits(t: string): (r: Option<int>)
    ensures r.Some? ==> |t| > 0
  {
    var digits := if |t| > 0 && (t[0] == '-' || t[0] == '+') then t[1..] else t;
    if |digits| == 0 || !AllDigits(digits) then None
    else if |t| > 0 && t[0] == '-' then Some(-(DigitsValue(digits) as int))
    else Some(DigitsValue(digits))
  }

  /** long.TryParse with the default integer style: optional leading and
      trailing white space, an optional sign, then at least one decimal digit;
      the value must fit in 64 bits. */
  function TryParseLong(s: string): (r: Option<int>)
    ensures r.Some? ==> InLongRange(r.value)
    ensures r.Some? ==> SignedDigits(Trim(s)) == r
    ensures SignedDigits(Trim(s)).Some? && InLongRange(SignedDigits(Trim(s)).value) ==> r == SignedDigits(Trim(s))
    ensures |Trim(s)| == 0 ==> r.None?
  {
    var v :- SignedDigits(Trim(s));
    if InLongRange(v) then Some(v) else None
  }

  /** The shortest decimal rendering of a natural number. */
  function NatDigits(n: nat): (s: string)
    ensures |s| > 0 && AllDigits(s)
    ensures DigitsValue(s) == n
    ensures n > 0 ==> s[0] != '0'
    decreases n
  {
    if n < 10 then [DigitChar(n)]
    else
      var prefix := NatDigits(n / 10);
      var s := prefix + [DigitChar(n % 10)];
      assert s[..|s| - 1] == prefix;
      s
  }

  /** Int64.ToString under the invariant culture. */
  function FormatLong(n: int): (s: string)
    ensures |s| > 0 && !IsWhite(s[0]) && !IsWhite(s[|s| - 1])
  {
    if n < 0 then "-" + NatDigits(-n) else NatDigits(n)
  }

  /** Parsing the rendering of any 64-bit value gives the value back. */
  lemma {:induction false} ParseFormatRoundTrip(n: int)
    requires InLongRange(n)
    ensures TryParseLong(FormatLong(n)) == Some(n)
  {
    var s := FormatLong(n);
    assert TrimStart(s) == s;
    assert TrimEnd(s) == s;
    assert Trim(s) == s;
    if n < 0 {
      assert s[1..] == NatDigits(-n);
    }
  }

  /** An empty or all-blank cell never parses, which is how a database NULL
      (whose text is the empty string) is rejected. */
  lemma BlankNeverParses(s: string)
    requires AllWhite(s)
    ensures TryParseLong(s).None?
  {
  }
}

=== FILE: job_base.dfy ===
/** AdminApiQuartzJobBase.Execute: the envelope every scheduled job runs in.
    It records InProgress, runs the job body, then records Completed, and turns
    any exception of the three into an Error record carrying its message. */
module QuartzJobBase {
  import opened Base
  import opened JobStatusService

  /** The merged job data map, reduced to the two keys the jobs read. The outer
      option says whether the key is present; a present tenant key may hold a
      null string. */
  datatype JobDataMap = JobDataMap(tenantName: Option<Option<string>>, odsInstanceId: Option<int>)

  datatype JobExecutionContext = JobExecutionContext(
    jobName: string,            // JobDetail.Key.Name
    fireInstanceId: string,
    mergedJobDataMap: JobDataMap)

  /** The run id: job name and fire instance id joined by an underscore. */
  function RunId(ctx: JobExecutionContext): (id: string)
    ensures |id| == |ctx.jobName| + 1 + |ctx.fireInstanceId|
    ensures id[..|ctx.jobName|] == ctx.jobName
    ensures id[|ctx.jobName|] == '_'
    ensures id[|ctx.jobName| + 1..] == ctx.fireInstanceId
  {
    ctx.jobName + "_" + ctx.fireInstanceId
  }

  /** The tenant every status write carries: the data map's value when the key
      is present, the empty string otherwise. */
  function WrapperTenant(ctx: JobExecutionContext): (t: Option<string>)
    ensures ctx.mergedJobDataMap.tenantName.None? ==> t == Some("")
    ensures ctx.mergedJobDataMap.tenantName.Some? ==> t == ctx.mergedJobDataMap.tenantName.value
  {
    match ctx.mergedJobDataMap.tenantName
    case None => Some("")
    case Some(value) => value
  }

  /** One attempted call of SetStatusAsync. */
  datatype StatusWrite = StatusWrite(runId: string, status: QuartzJobStatus, tenantName: Option<string>, errorMessage: Option<string>)

  /** The attempted status writes in order, the final state, and the exception
      that escaped the wrapper, if any. */
  datatype JobRun<S> = JobRun(writes: seq<StatusWrite>, state: S, escaped: Option<Exception>)

  function Begin(ctx: JobExecutionContext): StatusWrite {
    StatusWrite(RunId(ctx), InProgress, WrapperTenant(ctx), None)
  }

  function Done(ctx: JobExecutionContext): StatusWrite {
    StatusWrite(RunId(ctx), Completed, WrapperTenant(ctx), None)
  }

  function Failed(ctx: JobExecutionContext, e: Exception): StatusWrite {
    StatusWrite(RunId(ctx), Error, WrapperTenant(ctx), Some(e.message))
  }

  /** The catch block: record Error with the exception's message. A failure of
      this write is not caught and escapes. */
  function Catch<S(!new)>(ctx: JobExecutionContext, attempted: seq<StatusWrite>, s: S, e: Exception,
                    write: (S, StatusWrite) -> Step<S>): (r: JobRun<S>)
    ensures r.writes == attempted + [Failed(ctx, e)]
    ensures r.escaped == write(s, Failed(ctx, e)).thrown
  {
    var w := Failed(ctx, e);
    var after := write(s, w);
    JobRun(attempted + [w], after.state, after.thrown)
  }

  /** AdminApiQuartzJobBase.Execute, with the job body and the status writer as
      parameters. */
  function RunJob<S(!new)>(ctx: JobExecutionContext, body: S --> Step<S>, write: (S, StatusWrite) -> Step<S>, s: S): (r: JobRun<S>)
    requires forall t :: body.requires(t)
    ensures 2 <= |r.writes| <= 3 && r.writes[0] == Begin(ctx)
    ensures forall i :: 0 <= i < |r.writes| ==>
      r.writes[i].runId == RunId(ctx) && r.writes[i].tenantName == WrapperTenant(ctx) && r.writes[i].status != Pending
    ensures r.escaped.Some? ==> r.writes[|r.writes| - 1].status == Error
    ensures r.writes[|r.writes| - 1].status in {Completed, Error}
  {
    var s1 := write(s, Begin(ctx));
    if s1.thrown.Some? then Catch(ctx, [Begin(ctx)], s1.state, s1.thrown.value, write)
    else
      var b := body(s1.state);
      if b.thrown.Some? then Catch(ctx, [Begin(ctx)], b.state, b.thrown.value, write)
      else
        var s2 := write(b.state, Done(ctx));
        if s2.thrown.Some? then Catch(ctx, [Begin(ctx), Done(ctx)], s2.state, s2.thrown.value, write)
        else JobRun([Begin(ctx), Done(ctx)], s2.state, None)
  }

  /** A body that returns normally, with writes that succeed, yields exactly
      InProgress then Completed, both without a message, and nothing escapes. */
  lemma SuccessTrace<S(!new)>(ctx: JobExecutionContext, body: S --> Step<S>, write: (S, StatusWrite) -> Step<S>, s: S)
    requires forall t :: body.requires(t)
    requires forall t, w :: write(t, w).thrown.None?
    requires body(write(s, Begin(ctx)).state).thrown.None?
    ensures RunJob(ctx, body, write, s).writes == [Begin(ctx), Done(ctx)]
    ensures RunJob(ctx, body, write, s).escaped.None?
    ensures forall i :: 0 <= i < 2 ==> RunJob(ctx, body, write, s).writes[i].errorMessage.None?
  {
  }

  /** A body that throws with message M yields InProgress then Error(M);
      Completed is never attempted, and the wrapper escapes only what the Error
      write itself throws. */
  lemma BodyFailureTrace<S(!new)>(ctx: JobExecutionContext, body: S --> Step<S>, write: (S, StatusWrite) -> Step<S>, s: S)
    requires forall t :: body.requires(t)
    requires write(s, Begin(ctx)).thrown.None?
    requires body(write(s, Begin(ctx)).state).thrown.Some?
    ensures var e := body(write(s, Begin(ctx)).state).thrown.value;
            RunJob(ctx, body, write, s).writes == [Begin(ctx), Failed(ctx, e)]
            && Failed(ctx, e).errorMessage == Some(e.message)
    ensures forall w :: w in RunJob(ctx, body, write, s).writes ==> w.status != Completed
    ensures (forall t, w :: write(t, w).thrown.None?) ==> RunJob(ctx, body, write, s).escaped.None?
  {
  }

  /** When the InProgress write throws, the body is skipped: the run is the same
      whatever the body would have done, and ends with an Error write carrying
      that exception's message. */
  lemma BeginFailureSkipsBody<S(!new)>(ctx: JobExecutionContext, body1: S --> Step<S>, body2: S --> Step<S>,
                                 write: (S, StatusWrite) -> Step<S>, s: S)
    requires forall t :: body1.requires(t)
    requires forall t :: body2.requires(t)
    requires write(s, Begin(ctx)).thrown.Some?
    ensures RunJob(ctx, body1, write, s) == RunJob(ctx, body2, write, s)
    ensures RunJob(ctx, body1, write, s).writes ==
            [Begin(ctx), Failed(ctx, write(s, Begin(ctx)).thrown.value)]
  {
  }

  /** A throwing Completed write lands in the same catch block: the attempted
      trace is InProgress, Completed, Error. */
  lemma CompletedFailureTrace<S(!new)>(ctx: JobExecutionContext, body: S --> Step<S>, write: (S, StatusWrite) -> Step<S>, s: S)
    requires forall t :: body.requires(t)
    requires write(s, Begin(ctx)).thrown.None?
    requires body(write(s, Begin(ctx)).state).thrown.None?
    requires write(body(write(s, Begin(ctx)).state).state, Done(ctx)).thrown.Some?
    ensures |RunJob(ctx, body, write, s).writes| == 3
    ensures RunJob(ctx, body, write, s).writes[1] == Done(ctx)
    ensures RunJob(ctx, body, write, s).writes[2].status == Error
  {
  }
}

=== FILE: job_status.dfy ===
/** JobStatusService.SetStatusAsync and the QuartzJobStatus enumeration:
    an upsert of one status row per run id, into the tenant's administrative
    database or the default one. */
module JobStatusService {
  import opened Base
  import opened Text
  import opened AdminDatabase
  import opened TenantContexts

  datatype QuartzJobStatus = Pending | InProgress | Completed | Error

  /** QuartzJobStatus.ToString(): the member name. */
  function StatusName(s: QuartzJobStatus): string {
    match s
    case Pending => "Pending"
    case InProgress => "InProgress"
    case Completed => "Completed"
    case Error => "Error"
  }

  /** Enum.Parse of a stored status string (exact member name). */
  function ParseStatus(name: string): (r: Option<QuartzJobStatus>)
    ensures r.Some? ==> StatusName(r.value) == name
  {
    if name == "Pending" then Some(Pending)
    else if name == "InProgress" then Some(InProgress)
    else if name == "Completed" then Some(Completed)
    else if name == "Error" then Some(Error)
    else None
  }

  /** The stored string identifies the status: reading it back gives the
      status written, so distinct statuses are stored distinctly. */
  lemma StatusNameRoundTrip(s: QuartzJobStatus)
    ensures ParseStatus(StatusName(s)) == Some(s)
  {
  }

  /** Where a status write goes. */
  datatype StoreTarget = DefaultStore | TenantStore(tenant: string)

  function ResolveStore(multiTenancy: bool, tenantName: Option<string>): (t: StoreTarget)
    ensures t.TenantStore? <==> multiTenancy && !IsNullOrEmpty(tenantName)
    ensures t.TenantStore? ==> t.tenant == tenantName.value
  {
    if multiTenancy && !IsNullOrEmpty(tenantName) then TenantStore(tenantName.value) else DefaultStore
  }

  /** Create the row for `jobId` if absent, otherwise overwrite its status and
      error message (a null message clears a previous one). */
  function Upsert(table: map<string, JobStatusRow>, jobId: string, status: QuartzJobStatus, errorMessage: Option<string>)
    : (t: map<string, JobStatusRow>)
    ensures t.Keys == table.Keys + {jobId}
    ensures t[jobId] == JobStatusRow(StatusName(status), errorMessage)
    ensures forall j :: j in table && j != jobId ==> t[j] == table[j]
  {
    if jobId !in table then table[jobId := JobStatusRow(StatusName(status), errorMessage)]
    else table[jobId := table[jobId].(status := StatusName(status), errorMessage := errorMessage)]
  }

  /** The service's fixed configuration. */
  datatype StatusService = StatusService(
    multiTenancy: bool,
    provider: Provider,
    defaultAdminConnection: string)

  /** The connection string of the store a write resolves to; resolving a
      tenant store can throw what the tenant provider throws. */
  function StoreConnection(svc: StatusService, tenantName: Option<string>): (r: Result<string>)
    ensures ResolveStore(svc.multiTenancy, tenantName) == DefaultStore ==> r == Success(svc.defaultAdminConnection)
    ensures ResolveStore(svc.multiTenancy, tenantName).TenantStore? ==>
      var c := GetAdminApiDbContext(svc.provider, tenantName.value);
      (r.Success? <==> c.Success?) &&
      (r.Success? ==> r.value == c.value.connectionString) &&
      (r.Failure? ==> r.error == c.error)
  {
    match ResolveStore(svc.multiTenancy, tenantName)
    case DefaultStore => Success(svc.defaultAdminConnection)
    case TenantStore(t) =>
      var ctx :- GetAdminApiDbContext(svc.provider, t);
      Success(ctx.connectionString)
  }

  /** SetStatusAsync. A failed resolution or an unreachable store throws and
      changes nothing; otherwise exactly the one row of that store changes. */
  function SetStatus(svc: StatusService, dbs: Databases, jobId: string, status: QuartzJobStatus,
                     tenantName: Option<string>, errorMessage: Option<string>): (r: Step<Databases>)
    ensures r.thrown.Some? ==> r.state == dbs
    ensures r.thrown.None? <==> StoreConnection(svc, tenantName).Success? && StoreConnection(svc, tenantName).value in dbs
    ensures r.thrown.None? ==>
      var conn := StoreConnection(svc, tenantName).value;
      && r.state.Keys == dbs.Keys
      && (forall c :: c in dbs && c != conn ==> r.state[c] == dbs[c])
      && r.state[conn].odsInstances == dbs[conn].odsInstances
      && r.state[conn].edOrgs == dbs[conn].edOrgs
      && r.state[conn].jobStatuses.Keys == dbs[conn].jobStatuses.Keys + {jobId}
      && r.state[conn].jobStatuses[jobId] == JobStatusRow(StatusName(status), errorMessage)
      && (forall j :: j in dbs[conn].jobStatuses && j != jobId ==> r.state[conn].jobStatuses[j] == dbs[conn].jobStatuses[j])
  {
    match StoreConnection(svc, tenantName)
    case Failure(e) => Step(dbs, Some(e))
    case Success(conn) =>
      if conn !in dbs then Step(dbs, Some(Unreachable(conn)))
      else
        var db := dbs[conn];
        Step(dbs[conn := db.(jobStatuses := Upsert(db.jobStatuses, jobId, status, errorMessage))], None)
  }

  /** The last write for a job id decides its row: two successive writes for
      the same id leave exactly what the second one wrote. */
  lemma LastWriteWins(table: map<string, JobStatusRow>, jobId: string,
                      s1: QuartzJobStatus, m1: Option<string>, s2: QuartzJobStatus, m2: Option<string>)
    ensures Upsert(Upsert(table, jobId, s1, m1), jobId, s2, m2) == Upsert(table, jobId, s2, m2)
  {
  }
}

=== FILE: read_edorgs.dfy ===
/** ReadEducationOrganizations: the two list endpoints, which join the cached
    rows with the live ODS-instance registry on the instance id and take the
    instance name from the registry. */
module ReadEducationOrganizations {
  import opened Base
  import opened AdminDatabase
  import opened GetEducationOrganizationQuery

  /** The row the endpoints return. */
  datatype EducationOrganizationModel = EducationOrganizationModel(
    educationOrganizationId: int,
    nameOfInstitution: string,
    shortNameOfInstitution: Option<string>,
    discriminator: string,
    parentId: Option<int>,
    instanceId: int,
    instanceName: string,
    odsDatabaseName: Option<string>,
    lastRefreshed: DateTime,
    lastModifiedDate: DateTime)

  /** The join's projection: the instance name from the registry, every
      other field from the cached row. */
  function ToModel(e: EducationOrganization, instance: OdsInstance): (m: EducationOrganizationModel)
    ensures m.instanceName == instance.name
    ensures m.instanceId == e.instanceId && m.educationOrganizationId == e.educationOrganizationId
  {
    EducationOrganizationModel(e.educationOrganizationId, e.nameOfInstitution, e.shortNameOfInstitution,
                               e.discriminator, e.parentId, e.instanceId, instance.name, e.odsDatabaseName,
                               e.lastRefreshed, e.lastModifiedDate)
  }

  /** The cached row a model was projected from, as far as the model shows it:
      every cached field except the surrogate key and the cached instance
      name. */
  predicate CopiedFrom(m: EducationOrganizationModel, e: EducationOrganization) {
    && m.educationOrganizationId == e.educationOrganizationId
    && m.nameOfInstitution == e.nameOfInstitution
    && m.shortNameOfInstitution == e.shortNameOfInstitution
    && m.discriminator == e.discriminator
    && m.parentId == e.parentId
    && m.instanceId == e.instanceId
    && m.odsDatabaseName == e.odsDatabaseName
    && m.lastRefreshed == e.lastRefreshed
    && m.lastModifiedDate == e.lastModifiedDate
  }

  /** The join partners of one cached row, in registry order. */
  function Matches(e: EducationOrganization, instances: seq<OdsInstance>): (r: seq<EducationOrganizationModel>)
    ensures |r| <= |instances|
    ensures forall m :: m in r <==>
      exists j :: 0 <= j < |instances| && instances[j].odsInstanceId == e.instanceId && m == ToModel(e, instances[j])
  {
    if |instances| == 0 then []
    else
      var rest := Matches(e, instances[1..]);
      assert forall j :: 1 <= j < |instances| ==> instances[j] == instances[1..][j - 1];
      (if instances[0].odsInstanceId == e.instanceId then [ToModel(e, instances[0])] else []) + rest
  }

  /** The inner join of the cached rows with the registry, in row order. */
  function Join(rows: seq<EducationOrganization>, instances: seq<OdsInstance>): (r: seq<EducationOrganizationModel>)
  {
    if |rows| == 0 then [] else Matches(rows[0], instances) + Join(rows[1..], instances)
  }

  /** A model is in the join exactly when it projects some cached row
      together with a registered instance carrying that row's instance id. */
  lemma {:induction false} JoinMembership(rows: seq<EducationOrganization>, instances: seq<OdsInstance>,
                                          m: EducationOrganizationModel)
    ensures m in Join(rows, instances) <==>
      exists i, j :: 0 <= i < |rows| && 0 <= j < |instances| &&
        instances[j].odsInstanceId == rows[i].instanceId && m == ToModel(rows[i], instances[j])
    decreases |rows|
  {
    if |rows| > 0 {
      JoinMembership(rows[1..], instances, m);
      if m in Join(rows[1..], instances) {
        var i, j :| 0 <= i < |rows[1..]| && 0 <= j < |instances| &&
          instances[j].odsInstanceId == rows[1..][i].instanceId && m == ToModel(rows[1..][i], instances[j]);
        assert rows[i + 1] == rows[1..][i];
      }
      if exists i, j :: 0 <= i < |rows| && 0 <= j < |instances| &&
           instances[j].odsInstanceId == rows[i].instanceId && m == ToModel(rows[i], instances[j]) {
        var i, j :| 0 <= i < |rows| && 0 <= j < |instances| &&
          instances[j].odsInstanceId == rows[i].instanceId && m == ToModel(rows[i], instances[j]);
        if i > 0 {
          assert rows[1..][i - 1] == rows[i];
        }
      }
    }
  }

  /** GET /educationOrganizations: every cached row whose instance is still
      registered, named after the registry. */
  function GetEducationOrganizations(scan: seq<EducationOrganization>, instances: seq<OdsInstance>)
    : (r: seq<EducationOrganizationModel>)
    ensures forall m :: m in r ==>
      (exists i :: 0 <= i < |scan| && CopiedFrom(m, scan[i])) &&
      (exists j :: 0 <= j < |instances| && instances[j].odsInstanceId == m.instanceId && instances[j].name == m.instanceName)
  {
    var r := Join(scan, instances);
    forall m | m in r
      ensures exists i :: 0 <= i < |scan| && CopiedFrom(m, scan[i])
      ensures exists j :: 0 <= j < |instances| && instances[j].odsInstanceId == m.instanceId && instances[j].name == m.instanceName
    {
      JoinMembership(scan, instances, m);
      var i, j :| 0 <= i < |scan| && 0 <= j < |instances| &&
        instances[j].odsInstanceId == scan[i].instanceId && m == ToModel(scan[i], instances[j]);
      assert CopiedFrom(m, scan[i]);
    }
    r
  }

  /** A cached row shows up exactly when an instance with its id is
      registered; rows of deregistered instances are hidden, not deleted. */
  lemma RowShownIffInstanceRegistered(scan: seq<EducationOrganization>, instances: seq<OdsInstance>, i: int)
    requires 0 <= i < |scan|
    ensures (exists m :: m in GetEducationOrganizations(scan, instances) && CopiedFrom(m, scan[i])) <==>
            (exists j :: 0 <= j < |instances| && instances[j].odsInstanceId == scan[i].instanceId)
  {
    var r := GetEducationOrganizations(scan, instances);
    if exists j :: 0 <= j < |instances| && instances[j].odsInstanceId == scan[i].instanceId {
      var j :| 0 <= j < |instances| && instances[j].odsInstanceId == scan[i].instanceId;
      JoinMembership(scan, instances, ToModel(scan[i], instances[j]));
      assert CopiedFrom(ToModel(scan[i], instances[j]), scan[i]);
    }
    if exists m :: m in r && CopiedFrom(m, scan[i]) {
      var m :| m in r && CopiedFrom(m, scan[i]);
      JoinMembership(scan, instances, m);
    }
  }

  /** The by-instance filter on the endpoint's models. */
  function OfInstance(ms: seq<EducationOrganizationModel>, instanceId: int): (r: seq<EducationOrganizationModel>)
    ensures forall m :: m in r <==> m in ms && m.instanceId == instanceId
  {
    if |ms| == 0 then []
    else
      assert ms == [ms[0]] + ms[1..];
      (if ms[0].instanceId == instanceId then [ms[0]] else []) + OfInstance(ms[1..], instanceId)
  }

  lemma {:induction false} OfInstanceAppend(a: seq<EducationOrganizationModel>, b: seq<EducationOrganizationModel>, instanceId: int)
    ensures OfInstance(a + b, instanceId) == OfInstance(a, instanceId) + OfInstance(b, instanceId)
    decreases |a|
  {
    if |a| == 0 {
      assert a + b == b;
    } else {
      assert (a + b)[0] == a[0] && (a + b)[1..] == a[1..] + b;
      OfInstanceAppend(a[1..], b, instanceId);
    }
  }

  /** All join partners of a row carry the row's instance id. */
  lemma {:induction false} OfInstanceMatches(e: EducationOrganization, instances: seq<OdsInstance>, instanceId: int)
    ensures OfInstance(Matches(e, instances), instanceId) == if e.instanceId == instanceId then Matches(e, instances) else []
    decreases |instances|
  {
    if |instances| > 0 {
      var head := if instances[0].odsInstanceId == e.instanceId then [ToModel(e, instances[0])] else [];
      assert Matches(e, instances) == head + Matches(e, instances[1..]);
      OfInstanceAppend(head, Matches(e, instances[1..]), instanceId);
      OfInstanceMatches(e, instances[1..], instanceId);
    }
  }

  /** GET /educationOrganizations/{instanceId}: the cached rows of one
      instance, filtered before the join. */
  function GetEducationOrganizationsByInstance(scan: seq<EducationOrganization>, instances: seq<OdsInstance>, instanceId: int)
    : (r: seq<EducationOrganizationModel>)
    ensures forall m :: m in r ==> m.instanceId == instanceId
  {
    var r := Join(ByInstance(scan, instanceId), instances);
    forall m | m in r
      ensures m.instanceId == instanceId
    {
      JoinMembership(ByInstance(scan, instanceId), instances, m);
    }
    r
  }

  /** Filtering before the join gives the same list, in the same order, as
      filtering the full endpoint's answer. */
  lemma {:induction false} ByInstanceIsFilteredListing(scan: seq<EducationOrganization>, instances: seq<OdsInstance>, instanceId: int)
    ensures GetEducationOrganizationsByInstance(scan, instances, instanceId) ==
            OfInstance(GetEducationOrganizations(scan, instances), instanceId)
    decreases |scan|
  {
    if |scan| > 0 {
      var rest := ByInstance(scan[1..], instanceId);
      if scan[0].instanceId == instanceId {
        assert ByInstance(scan, instanceId) == [scan[0]] + rest;
        assert ([scan[0]] + rest)[1..] == rest;
      } else {
        assert ByInstance(scan, instanceId) == rest;
      }
      ByInstanceIsFilteredListing(scan[1..], instances, instanceId);
      OfInstanceAppend(Matches(scan[0], instances), Join(scan[1..], instances), instanceId);
      OfInstanceMatches(scan[0], instances, instanceId);
    }
  }
}

=== FILE: reconcile.dfy ===
/** The cache update at the heart of RefreshEducationOrganizationsAsync: for one
    ODS instance, update the rows whose id the source still has, add rows for
    ids it newly has, and delete the rows whose id it no longer has. All of
    it is committed by one SaveChanges. */
module CacheRefresh {
  import opened Base
  import opened AdminDatabase
  import opened RowReader

  /** The source's ids, as the HashSet built before the loop. */
  function SourceIds(src: seq<EdOrgResult>): set<int> {
    set i | 0 <= i < |src| :: src[i].educationOrganizationId
  }

  /** The cache keys the source rows land on for one instance. */
  function SourceKeys(instanceId: int, src: seq<EdOrgResult>): set<Key> {
    set i | 0 <= i < |src| :: (instanceId, src[i].educationOrganizationId)
  }

  /** The source lists each id once, as the primary key of
      edfi.EducationOrganization guarantees. */
  predicate DistinctIds(src: seq<EdOrgResult>) {
    forall i, j :: 0 <= i < j < |src| ==> src[i].educationOrganizationId != src[j].educationOrganizationId
  }

  /** The existing rows of one instance, by education organization id: the
      dictionary read before the loop. */
  function Snapshot(t: EdOrgTable, instanceId: int): (m: map<int, EducationOrganization>)
    ensures m.Keys == InstanceIds(t, instanceId)
    ensures forall id :: id in m ==> m[id] == t.rows[(instanceId, id)]
  {
    map id | id in InstanceIds(t, instanceId) :: t.rows[(instanceId, id)]
  }

  /** An existing row after the update branch: the four copied fields and both
      timestamps change; the surrogate key, the instance name and the ODS
      database name stay. */
  function Refreshed(existing: EducationOrganization, e: EdOrgResult, now: DateTime): EducationOrganization {
    existing.(nameOfInstitution := e.nameOfInstitution, shortNameOfInstitution := e.shortNameOfInstitution,
              discriminator := e.discriminator, parentId := e.parentId,
              lastModifiedDate := now, lastRefreshed := now)
  }

  /** A row added by the insert branch, with the surrogate key the store
      assigns. */
  function Inserted(inst: OdsInstance, e: EdOrgResult, id: int, now: DateTime): EducationOrganization {
    EducationOrganization(id, inst.odsInstanceId, inst.name, e.educationOrganizationId, e.nameOfInstitution,
                          e.shortNameOfInstitution, e.discriminator, e.parentId, None, now, now)
  }

  /** The same row with both timestamps set to `now`. */
  function Restamp(x: EducationOrganization, now: DateTime): EducationOrganization {
    x.(lastModifiedDate := now, lastRefreshed := now)
  }

  /** How many source rows take the insert branch. */
  function NewCount(existing: set<int>, src: seq<EdOrgResult>): (n: nat)
    ensures n <= |src|
  {
    if |src| == 0 then 0
    else (if src[0].educationOrganizationId in existing then 0 else 1) + NewCount(existing, src[1..])
  }

  /** One iteration of the foreach. */
  function ApplyOne(t: EdOrgTable, inst: OdsInstance, existing: map<int, EducationOrganization>,
                    e: EdOrgResult, now: DateTime): EdOrgTable {
    var k := (inst.odsInstanceId, e.educationOrganizationId);
    if e.educationOrganizationId in existing then
      EdOrgTable(t.rows[k := Refreshed(existing[e.educationOrganizationId], e, now)], t.nextId)
    else
      EdOrgTable(t.rows[k := Inserted(inst, e, t.nextId, now)], t.nextId + 1)
  }

  /** The foreach over the source rows, in order. Only the source's keys are
      written, and the identity counter advances once per insert. */
  function ApplyAll(t: EdOrgTable, inst: OdsInstance, existing: map<int, EducationOrganization>,
                    src: seq<EdOrgResult>, now: DateTime): (r: EdOrgTable)
    ensures r.rows.Keys == t.rows.Keys + SourceKeys(inst.odsInstanceId, src)
    ensures forall k :: k in t.rows && k !in SourceKeys(inst.odsInstanceId, src) ==> r.rows[k] == t.rows[k]
    ensures r.nextId == t.nextId + NewCount(existing.Keys, src)
    decreases |src|
  {
    if |src| == 0 then t
    else
      var t1 := ApplyOne(t, inst, existing, src[0], now);
      var r := ApplyAll(t1, inst, existing, src[1..], now);
      assert SourceKeys(inst.odsInstanceId, src)
          == {(inst.odsInstanceId, src[0].educationOrganizationId)} + SourceKeys(inst.odsInstanceId, src[1..]) by {
        SourceKeysCons(inst.odsInstanceId, src);
      }
      r
  }

  lemma SourceKeysCons(instanceId: int, src: seq<EdOrgResult>)
    requires |src| > 0
    ensures SourceKeys(instanceId, src) == {(instanceId, src[0].educationOrganizationId)} + SourceKeys(instanceId, src[1..])
    ensures SourceIds(src) == {src[0].educationOrganizationId} + SourceIds(src[1..])
  {
    forall k | k in SourceKeys(instanceId, src)
      ensures k == (instanceId, src[0].educationOrganizationId) || k in SourceKeys(instanceId, src[1..])
    {
      var i :| 0 <= i < |src| && k == (instanceId, src[i].educationOrganizationId);
      if i > 0 {
        assert src[1..][i - 1] == src[i];
      }
    }
    forall x | x in SourceIds(src)
      ensures x == src[0].educationOrganizationId || x in SourceIds(src[1..])
    {
      var i :| 0 <= i < |src| && x == src[i].educationOrganizationId;
      if i > 0 {
        assert src[1..][i - 1] == src[i];
      }
    }
    forall k | k in SourceKeys(instanceId, src[1..])
      ensures k in SourceKeys(instanceId, src)
    {
      var i :| 0 <= i < |src[1..]| && k == (instanceId, src[1..][i].educationOrganizationId);
      assert src[i + 1] == src[1..][i];
    }
    forall x | x in SourceIds(src[1..])
      ensures x in SourceIds(src)
    {
      var i :| 0 <= i < |src[1..]| && x == src[1..][i].educationOrganizationId;
      assert src[i + 1] == src[1..][i];
    }
  }

  /** RemoveRange of the snapshot rows whose id the source no longer has. */
  function DeleteStale(t: EdOrgTable, instanceId: int, existing: set<int>, keep: set<int>): (r: EdOrgTable)
    ensures r.nextId == t.nextId
    ensures forall k :: k in r.rows <==> k in t.rows && !(k.0 == instanceId && k.1 in existing && k.1 !in keep)
    ensures forall k :: k in r.rows ==> r.rows[k] == t.rows[k]
  {
    EdOrgTable(map k | k in t.rows && !(k.0 == instanceId && k.1 in existing && k.1 !in keep) :: t.rows[k], t.nextId)
  }

  /** The cache side of RefreshEducationOrganizationsAsync for one instance
      and one source result list. */
  function Reconcile(t: EdOrgTable, inst: OdsInstance, src: seq<EdOrgResult>, now: DateTime): (r: EdOrgTable)
    ensures forall k: Key :: k.0 != inst.odsInstanceId ==> (k in r.rows <==> k in t.rows)
    ensures forall k: Key :: k.0 != inst.odsInstanceId && k in t.rows ==> r.rows[k] == t.rows[k]
    ensures InstanceIds(r, inst.odsInstanceId) == SourceIds(src)
    ensures r.nextId == t.nextId + NewCount(InstanceIds(t, inst.odsInstanceId), src)
  {
    var existing := Snapshot(t, inst.odsInstanceId);
    var applied := ApplyAll(t, inst, existing, src, now);
    var r := DeleteStale(applied, inst.odsInstanceId, existing.Keys, SourceIds(src));
    assert InstanceIds(r, inst.odsInstanceId) == SourceIds(src) by {
      forall id | id in SourceIds(src)
        ensures id in InstanceIds(r, inst.odsInstanceId)
      {
        var i :| 0 <= i < |src| && id == src[i].educationOrganizationId;
        assert (inst.odsInstanceId, id) in SourceKeys(inst.odsInstanceId, src);
      }
      forall id | id in InstanceIds(r, inst.odsInstanceId)
        ensures id in SourceIds(src)
      {
        var k := (inst.odsInstanceId, id);
        if k !in SourceKeys(inst.odsInstanceId, src) {
          assert id in existing.Keys;
        } else {
          var i :| 0 <= i < |src| && k == (inst.odsInstanceId, src[i].educationOrganizationId);
        }
      }
    }
    r
  }

  /** The dictionary still describes the table: every snapshot row is present
      under its own key with the same surrogate key. */
  ghost predicate SnapshotOf(t: EdOrgTable, instanceId: int, existing: map<int, EducationOrganization>) {
    forall id :: id in existing ==>
      && (instanceId, id) in t.rows
      && KeyOf(existing[id]) == (instanceId, id)
      && t.rows[(instanceId, id)].id == existing[id].id
  }

  lemma ApplyOneWellFormed(t: EdOrgTable, inst: OdsInstance, existing: map<int, EducationOrganization>, e: EdOrgResult, now: DateTime)
    requires WellFormed(t) && SnapshotOf(t, inst.odsInstanceId, existing)
    ensures WellFormed(ApplyOne(t, inst, existing, e, now))
    ensures SnapshotOf(ApplyOne(t, inst, existing, e, now), inst.odsInstanceId, existing)
  {
    var t1 := ApplyOne(t, inst, existing, e, now);
    var k := (inst.odsInstanceId, e.educationOrganizationId);
    forall k1, k2 | k1 in t1.rows && k2 in t1.rows && k1 != k2
      ensures t1.rows[k1].id != t1.rows[k2].id
    {
      if k1 != k && k2 != k {
      } else if e.educationOrganizationId in existing {
        assert t1.rows[k].id == t.rows[k].id;
      }
    }
  }

  /** The update loop keeps the table well formed, whatever the source. */
  lemma {:induction false} ApplyAllWellFormed(t: EdOrgTable, inst: OdsInstance, existing: map<int, EducationOrganization>,
                                              src: seq<EdOrgResult>, now: DateTime)
    requires WellFormed(t) && SnapshotOf(t, inst.odsInstanceId, existing)
    ensures WellFormed(ApplyAll(t, inst, existing, src, now))
    decreases |src|
  {
    if |src| > 0 {
      var t1 := ApplyOne(t, inst, existing, src[0], now);
      ApplyOneWellFormed(t, inst, existing, src[0], now);
      ApplyAllWellFormed(t1, inst, existing, src[1..], now);
    }
  }

  /** After the loop, each source row's key holds that row's values: the
      refreshed snapshot row when the id was cached, otherwise a new row with
      a fresh surrogate key. */
  lemma {:induction false} ApplyAllContents(t: EdOrgTable, inst: OdsInstance, existing: map<int, EducationOrganization>,
                                            src: seq<EdOrgResult>, now: DateTime)
    requires DistinctIds(src)
    ensures var r := ApplyAll(t, inst, existing, src, now);
      forall i :: 0 <= i < |src| ==>
        var id := src[i].educationOrganizationId;
        var k := (inst.odsInstanceId, id);
        && k in r.rows
        && (id in existing ==> r.rows[k] == Refreshed(existing[id], src[i], now))
        && (id !in existing ==> r.rows[k] == Inserted(inst, src[i], r.rows[k].id, now)
                                && t.nextId <= r.rows[k].id < r.nextId)
    decreases |src|
  {
    if |src| > 0 {
      var t1 := ApplyOne(t, inst, existing, src[0], now);
      var r := ApplyAll(t, inst, existing, src, now);
      assert DistinctIds(src[1..]) by {
        forall i, j | 0 <= i < j < |src[1..]|
          ensures src[1..][i].educationOrganizationId != src[1..][j].educationOrganizationId
        {
          assert src[1..][i] == src[i + 1] && src[1..][j] == src[j + 1];
        }
      }
      ApplyAllContents(t1, inst, existing, src[1..], now);
      var k0 := (inst.odsInstanceId, src[0].educationOrganizationId);
      assert k0 !in SourceKeys(inst.odsInstanceId, src[1..]) by {
        forall j | 0 <= j < |src[1..]|
          ensures src[1..][j].educationOrganizationId != src[0].educationOrganizationId
        {
          assert src[1..][j] == src[j + 1];
        }
      }
      forall i | 0 <= i < |src|
        ensures var id := src[i].educationOrganizationId;
          var k := (inst.odsInstanceId, id);
          && k in r.rows
          && (id in existing ==> r.rows[k] == Refreshed(existing[id], src[i], now))
          && (id !in existing ==> r.rows[k] == Inserted(inst, src[i], r.rows[k].id, now)
                                  && t.nextId <= r.rows[k].id < r.nextId)
      {
        if i == 0 {
          assert r.rows[k0] == t1.rows[k0];
        } else {
          assert src[i] == src[1..][i - 1];
        }
      }
    }
  }

  /** Refreshing keeps the table well formed. */
  lemma ReconcileWellFormed(t: EdOrgTable, inst: OdsInstance, src: seq<EdOrgResult>, now: DateTime)
    requires WellFormed(t)
    ensures WellFormed(Reconcile(t, inst, src, now))
  {
    var existing := Snapshot(t, inst.odsInstanceId);
    ApplyAllWellFormed(t, inst, existing, src, now);
  }

  /** What a refresh leaves for the instance: a row per source id carrying the
      source's values and `now` as both timestamps. A row that was cached keeps
      its surrogate key, instance name and ODS database name; a new one gets a
      surrogate key above every earlier one, the instance's current name and no
      ODS database name. */
  lemma ReconcileContents(t: EdOrgTable, inst: OdsInstance, src: seq<EdOrgResult>, now: DateTime)
    requires WellFormed(t)
    requires DistinctIds(src)
    ensures var r := Reconcile(t, inst, src, now);
      forall i :: 0 <= i < |src| ==>
        var k := (inst.odsInstanceId, src[i].educationOrganizationId);
        && k in r.rows
        && (k in t.rows ==> r.rows[k] == Refreshed(t.rows[k], src[i], now))
        && (k !in t.rows ==> r.rows[k] == Inserted(inst, src[i], r.rows[k].id, now)
                             && t.nextId <= r.rows[k].id < r.nextId)
  {
    var existing := Snapshot(t, inst.odsInstanceId);
    ApplyAllContents(t, inst, existing, src, now);
    var r := Reconcile(t, inst, src, now);
    forall i | 0 <= i < |src|
      ensures (inst.odsInstanceId, src[i].educationOrganizationId) in r.rows
    {
      assert src[i].educationOrganizationId in SourceIds(src);
    }
  }

  lemma NewCountNone(existing: set<int>, src: seq<EdOrgResult>)
    requires SourceIds(src) <= existing
    ensures NewCount(existing, src) == 0
  {
    if |src| > 0 {
      SourceKeysCons(0, src);
      NewCountNone(existing, src[1..]);
    }
  }

  /** A second refresh from the same source finds every source row cached and
      only restamps it. */
  lemma RefreshAgainRestamps(t: EdOrgTable, inst: OdsInstance, src: seq<EdOrgResult>, n1: DateTime, n2: DateTime, i: int)
    requires WellFormed(t)
    requires DistinctIds(src)
    requires 0 <= i < |src|
    ensures var k := (inst.odsInstanceId, src[i].educationOrganizationId);
      var r1 := Reconcile(t, inst, src, n1);
      var r2 := Reconcile(r1, inst, src, n2);
      k in r1.rows && k in r2.rows && r2.rows[k] == Restamp(r1.rows[k], n2)
  {
    ReconcileWellFormed(t, inst, src, n1);
    ReconcileContents(t, inst, src, n1);
    ReconcileContents(Reconcile(t, inst, src, n1), inst, src, n2);
  }

  /** Two tables that agree on every other instance's keys and on one
      instance's ids have the same keys. */
  lemma SameKeys(a: EdOrgTable, b: EdOrgTable, instanceId: int)
    requires forall k: Key :: k.0 != instanceId ==> (k in a.rows <==> k in b.rows)
    requires InstanceIds(a, instanceId) == InstanceIds(b, instanceId)
    ensures a.rows.Keys == b.rows.Keys
  {
    forall k | k in a.rows
      ensures k in b.rows
    {
      if k.0 == instanceId {
        assert k.1 in InstanceIds(a, instanceId);
      }
    }
    forall k | k in b.rows
      ensures k in a.rows
    {
      if k.0 == instanceId {
        assert k.1 in InstanceIds(b, instanceId);
      }
    }
  }

  /** A second refresh from the same source neither adds nor deletes a row
      and takes no new identity value. */
  lemma RefreshAgainKeys(t: EdOrgTable, inst: OdsInstance, src: seq<EdOrgResult>, n1: DateTime, n2: DateTime)
    ensures var r1 := Reconcile(t, inst, src, n1);
      var r2 := Reconcile(r1, inst, src, n2);
      r2.nextId == r1.nextId && r2.rows.Keys == r1.rows.Keys
  {
    var r1 := Reconcile(t, inst, src, n1);
    var r2 := Reconcile(r1, inst, src, n2);
    NewCountNone(InstanceIds(r1, inst.odsInstanceId), src);
    SameKeys(r1, r2, inst.odsInstanceId);
  }

  /** Refreshing again from the same source changes nothing but timestamps:
      the same keys, the same surrogate keys, no new identity values. */
  lemma ReconcileIdempotent(t: EdOrgTable, inst: OdsInstance, src: seq<EdOrgResult>, n1: DateTime, n2: DateTime)
    requires WellFormed(t)
    requires DistinctIds(src)
    ensures var r1 := Reconcile(t, inst, src, n1);
      var r2 := Reconcile(r1, inst, src, n2);
      && r2.nextId == r1.nextId
      && r2.rows.Keys == r1.rows.Keys
      && forall k :: k in r1.rows ==>
           r2.rows[k] == if k.0 == inst.odsInstanceId then Restamp(r1.rows[k], n2) else r1.rows[k]
  {
    var r1 := Reconcile(t, inst, src, n1);
    var r2 := Reconcile(r1, inst, src, n2);
    var I := inst.odsInstanceId;
    RefreshAgainKeys(t, inst, src, n1, n2);
    forall k | k in r1.rows
      ensures r2.rows[k] == if k.0 == I then Restamp(r1.rows[k], n2) else r1.rows[k]
    {
      if k.0 == I {
        assert k.1 in InstanceIds(r1, I);
        var i :| 0 <= i < |src| && k.1 == src[i].educationOrganizationId;
        RefreshAgainRestamps(t, inst, src, n1, n2, i);
      }
    }
  }
}

=== FILE: refresh_job.dfy ===
/** RefreshEducationOrganizationsJob.ExecuteJobAsync: reads the tenant and
    instance id from the job data map and decides which Execute call, if any,
    to make; and the whole scheduled run, wrapped in the status envelope. */
module RefreshEducationOrganizationsJob {
  import opened Base
  import opened Text
  import opened AdminDatabase
  import opened JobStatusService
  import opened QuartzJobBase
  import opened EducationOrganizationService

  /** The call the job makes on the service. */
  datatype Dispatch = NoCall | ExecuteCall(tenantName: Option<string>, instanceId: Option<int>)

  /** ExecuteJobAsync's decision. The instance id is forwarded whenever the
      key is present. With multi-tenancy on and the tenant key present, a
      non-empty tenant is forwarded and an empty one means no call; in every
      other case the service is called without a tenant. */
  function Decide(multiTenancy: bool, data: JobDataMap): (d: Dispatch)
    ensures d.ExecuteCall? ==> d.instanceId == data.odsInstanceId
    ensures d.NoCall? <==> multiTenancy && data.tenantName.Some? && IsNullOrEmpty(data.tenantName.value)
    ensures d.ExecuteCall? && d.tenantName.Some? <==>
              multiTenancy && data.tenantName.Some? && !IsNullOrEmpty(data.tenantName.value)
    ensures d.ExecuteCall? && d.tenantName.Some? ==> d.tenantName == data.tenantName.value
  {
    if multiTenancy && data.tenantName.Some? then
      if !IsNullOrEmpty(data.tenantName.value) then ExecuteCall(data.tenantName.value, data.odsInstanceId)
      else NoCall
    else ExecuteCall(None, data.odsInstanceId)
  }

  /** The job body as the envelope runs it. */
  function JobBody(env: Environment, ctx: JobExecutionContext, now: DateTime): (r: Databases -> Step<Databases>)
    ensures forall d :: r(d).state.Keys == d.Keys
    ensures Decide(env.settings.multiTenancy, ctx.mergedJobDataMap).NoCall? ==> forall d :: r(d) == Step(d, None)
    ensures env.settings.multiTenancy && ctx.mergedJobDataMap.tenantName.None? ==> forall d :: r(d).state == d
  {
    (dbs: Databases) =>
      match Decide(env.settings.multiTenancy, ctx.mergedJobDataMap)
      case NoCall => Step(dbs, None)
      case ExecuteCall(tenant, id) => Execute(env, dbs, tenant, id, now)
  }

  /** SetStatusAsync as the envelope's status writer. */
  function Writer(svc: StatusService): (Databases, StatusWrite) -> Step<Databases> {
    (dbs: Databases, w: StatusWrite) => SetStatus(svc, dbs, w.runId, w.status, w.tenantName, w.errorMessage)
  }

  /** One scheduled run of the refresh job. */
  function RunRefreshJob(env: Environment, svc: StatusService, ctx: JobExecutionContext, dbs: Databases, now: DateTime)
    : (r: JobRun<Databases>)
    ensures |r.writes| >= 2 && r.writes[0].status == InProgress
    ensures forall i :: 0 <= i < |r.writes| ==> r.writes[i].runId == RunId(ctx)
    ensures StoreConnection(svc, WrapperTenant(ctx)).Success? && StoreConnection(svc, WrapperTenant(ctx)).value in dbs ==>
      var conn := StoreConnection(svc, WrapperTenant(ctx)).value;
      var started := SetStatus(svc, dbs, RunId(ctx), InProgress, WrapperTenant(ctx), None).state;
      var outcome := JobBody(env, ctx, now)(started);
      && r.escaped.None?
      && conn in r.state
      && RunId(ctx) in r.state[conn].jobStatuses
      && r.state[conn].jobStatuses[RunId(ctx)] ==
           if outcome.thrown.Some? then JobStatusRow("Error", Some(outcome.thrown.value.message))
           else JobStatusRow("Completed", None)
  {
    RunRecordsOutcome(env, svc, ctx, dbs, now);
    RunJob(ctx, JobBody(env, ctx, now), Writer(svc), dbs)
  }

  /** In multi-tenant mode a job whose tenant is missing or empty never
      touches the caches: either no call is made, or Execute returns at its
      tenant check. */
  lemma MultiTenantWithoutTenantChangesNothing(env: Environment, ctx: JobExecutionContext, now: DateTime, dbs: Databases)
    requires env.settings.multiTenancy
    requires ctx.mergedJobDataMap.tenantName.None? || IsNullOrEmpty(ctx.mergedJobDataMap.tenantName.value)
    ensures JobBody(env, ctx, now)(dbs).state == dbs
  {
  }

  /** The tenant the job refreshes is the tenant its status is recorded
      under: when the job forwards a tenant, the envelope writes every status
      with that same tenant. */
  lemma ForwardedTenantIsStatusTenant(multiTenancy: bool, ctx: JobExecutionContext)
    requires Decide(multiTenancy, ctx.mergedJobDataMap).ExecuteCall?
    requires Decide(multiTenancy, ctx.mergedJobDataMap).tenantName.Some?
    ensures Decide(multiTenancy, ctx.mergedJobDataMap).tenantName == WrapperTenant(ctx)
  {
  }

  /** When the status store resolves to a reachable database, the envelope
      around the job body records its outcome there under the run id:
      Completed with no message when the refresh returned normally, Error with
      the refresh's message when it threw; and no exception escapes. */
  lemma RunRecordsOutcome(env: Environment, svc: StatusService, ctx: JobExecutionContext, dbs: Databases, now: DateTime)
    ensures StoreConnection(svc, WrapperTenant(ctx)).Success? && StoreConnection(svc, WrapperTenant(ctx)).value in dbs ==>
      var run := RunJob(ctx, JobBody(env, ctx, now), Writer(svc), dbs);
      var conn := StoreConnection(svc, WrapperTenant(ctx)).value;
      var started := SetStatus(svc, dbs, RunId(ctx), InProgress, WrapperTenant(ctx), None).state;
      var outcome := JobBody(env, ctx, now)(started);
      && run.escaped.None?
      && conn in run.state
      && RunId(ctx) in run.state[conn].jobStatuses
      && run.state[conn].jobStatuses[RunId(ctx)] ==
           if outcome.thrown.Some? then JobStatusRow("Error", Some(outcome.thrown.value.message))
           else JobStatusRow("Completed", None)
  {
    if StoreConnection(svc, WrapperTenant(ctx)).Success? && StoreConnection(svc, WrapperTenant(ctx)).value in dbs {
      var started := SetStatus(svc, dbs, RunId(ctx), InProgress, WrapperTenant(ctx), None);
      assert Writer(svc)(dbs, Begin(ctx)) == started;
      var outcome := JobBody(env, ctx, now)(started.state);
      if outcome.thrown.None? {
        assert Writer(svc)(outcome.state, Done(ctx)).thrown.None?;
      } else {
        assert Writer(svc)(outcome.state, Failed(ctx, outcome.thrown.value)).thrown.None?;
      }
    }
  }
}

=== FILE: row_reader.dfy ===
/** ReadEducationOrganizationsFromDbDataReader: turns the rows the remote ODS
    query returns into typed results. A row that fails conversion is logged and
    skipped; a failure of the reader itself ends the read with what was
    collected so far. Nothing here throws. */
module RowReader {
  import opened Base
  import opened Text
  import opened Int64

  /** One row as the data reader exposes it: every column may be a database
      null. Values are their `ToString()` text. */
  datatype RawRow = RawRow(
    educationOrganizationId: Option<string>,
    nameOfInstitution: Option<string>,
    shortNameOfInstitution: Option<string>,
    discriminator: Option<string>,
    id: Option<string>,            // the ODS record's GUID
    parentId: Option<string>)

  /** EducationOrganizationResult. */
  datatype EdOrgResult = EdOrgResult(
    educationOrganizationId: int,
    nameOfInstitution: string,
    shortNameOfInstitution: Option<string>,
    discriminator: string,
    id: string,
    parentId: Option<int>)

  /** The local Convert(column): the cell's text (a database null reads as the
      empty string) through long.TryParse; failure throws, which the per-row
      catch turns into a skipped row. */
  function ConvertCell(cell: Option<string>): (r: Option<int>)
    ensures r.Some? ==> InLongRange(r.value)
    ensures cell.None? ==> r.None?
  {
    TryParseLong(cell.GetOr(""))
  }

  /** Whether a row survives conversion: a parsable id, non-null name,
      discriminator and GUID, and a parent that is null or parsable. The short
      name may be anything. */
  predicate Convertible(row: RawRow) {
    && ConvertCell(row.educationOrganizationId).Some?
    && row.nameOfInstitution.Some?
    && row.discriminator.Some?
    && row.id.Some?
    && (row.parentId.Some? ==> ConvertCell(row.parentId).Some?)
  }

  /** The body of the per-row try block. */
  function ParseRow(row: RawRow): (r: Option<EdOrgResult>)
    ensures r.Some? <==> Convertible(row)
    ensures r.Some? ==>
      && Some(r.value.educationOrganizationId) == ConvertCell(row.educationOrganizationId)
      && InLongRange(r.value.educationOrganizationId)
      && Some(r.value.nameOfInstitution) == row.nameOfInstitution
      && r.value.shortNameOfInstitution == row.shortNameOfInstitution
      && Some(r.value.discriminator) == row.discriminator
      && Some(r.value.id) == row.id
      && (r.value.parentId.None? <==> row.parentId.None?)
      && (r.value.parentId.Some? ==> r.value.parentId == ConvertCell(row.parentId))
  {
    var educationOrganizationId :- ConvertCell(row.educationOrganizationId);
    var name :- row.nameOfInstitution;
    var discriminator :- row.discriminator;
    var id :- row.id;
    if row.parentId.None? then
      Some(EdOrgResult(educationOrganizationId, name, row.shortNameOfInstitution, discriminator, id, None))
    else
      var parent :- ConvertCell(row.parentId);
      Some(EdOrgResult(educationOrganizationId, name, row.shortNameOfInstitution, discriminator, id, Some(parent)))
  }

  /** The read loop over a complete stream: convertible rows in order, the
      rest dropped. */
  function ParseRows(rows: seq<RawRow>): (r: seq<EdOrgResult>)
    ensures |r| <= |rows|
    ensures forall i :: 0 <= i < |r| ==> InLongRange(r[i].educationOrganizationId)
  {
    if |rows| == 0 then [] else Head(rows[0]) + ParseRows(rows[1..])
  }

  /** The read distributes over concatenation of the stream. */
  lemma {:induction false} ParseRowsAppend(a: seq<RawRow>, b: seq<RawRow>)
    ensures ParseRows(a + b) == ParseRows(a) + ParseRows(b)
    decreases |a|
  {
    if |a| == 0 {
      assert a + b == b;
    } else {
      assert (a + b)[1..] == a[1..] + b;
      ParseRowsAppend(a[1..], b);
    }
  }

  /** One step of the read loop: the head row's result, if any, before the
      rest. */
  lemma ParseRowsCons(rows: seq<RawRow>)
    requires |rows| > 0
    ensures ParseRows(rows) == Head(rows[0]) + ParseRows(rows[1..])
  {
  }

  function Head(row: RawRow): (r: seq<EdOrgResult>)
    ensures |r| <= 1
  {
    match ParseRow(row)
    case Some(x) => [x]
    case None => []
  }

  /** A result is present exactly when some row converts to it. */
  lemma {:induction false} ParseRowsMembership(rows: seq<RawRow>, x: EdOrgResult)
    ensures x in ParseRows(rows) <==> exists i :: 0 <= i < |rows| && ParseRow(rows[i]) == Some(x)
    decreases |rows|
  {
    if |rows| > 0 {
      ParseRowsCons(rows);
      ParseRowsMembership(rows[1..], x);
      assert x in Head(rows[0]) <==> ParseRow(rows[0]) == Some(x);
      if x in ParseRows(rows[1..]) {
        var i :| 0 <= i < |rows[1..]| && ParseRow(rows[1..][i]) == Some(x);
        assert ParseRow(rows[i + 1]) == Some(x);
      }
      if exists i :: 0 <= i < |rows| && ParseRow(rows[i]) == Some(x) {
        var i :| 0 <= i < |rows| && ParseRow(rows[i]) == Some(x);
        if i > 0 {
          assert ParseRow(rows[1..][i - 1]) == Some(x);
        }
      }
    }
  }

  /** Reading a prefix of the stream yields a prefix of the results. */
  lemma ParseRowsPrefix(d: seq<RawRow>, rows: seq<RawRow>)
    requires d <= rows
    ensures ParseRows(d) <= ParseRows(rows)
  {
    var rest := rows[|d|..];
    assert d + rest == rows;
    ParseRowsAppend(d, rest);
  }

  /** The reader: the rows the driver yields, and the position at which
      `ReadAsync` throws, if it does. */
  datatype ReaderStream = ReaderStream(rows: seq<RawRow>, breaksAt: Option<nat>)

  /** The rows read before the reader fails. */
  function Delivered(s: ReaderStream): (d: seq<RawRow>)
    ensures d <= s.rows
    ensures s.breaksAt.None? ==> d == s.rows
  {
    if s.breaksAt.Some? && s.breaksAt.value < |s.rows| then s.rows[..s.breaksAt.value] else s.rows
  }

  /** ReadEducationOrganizationsFromDbDataReader: never throws; a broken stream
      yields a prefix of what the full stream would have yielded. */
  function ReadAll(s: ReaderStream): (r: seq<EdOrgResult>)
    ensures r <= ParseRows(s.rows)
    ensures s.breaksAt.None? ==> r == ParseRows(s.rows)
  {
    var d := Delivered(s);
    ParseRowsPrefix(d, s.rows);
    ParseRows(d)
  }

  /** How a typed result appears in the reader: numbers as their decimal text,
      a null parent as a database null. */
  function Render(x: EdOrgResult): (row: RawRow)
    ensures row.nameOfInstitution == Some(x.nameOfInstitution)
    ensures row.parentId.None? <==> x.parentId.None?
  {
    RawRow(Some(FormatLong(x.educationOrganizationId)), Some(x.nameOfInstitution), x.shortNameOfInstitution,
           Some(x.discriminator), Some(x.id),
           if x.parentId.Some? then Some(FormatLong(x.parentId.value)) else None)
  }

  predicate InRange(x: EdOrgResult) {
    InLongRange(x.educationOrganizationId) && (x.parentId.Some? ==> InLongRange(x.parentId.value))
  }

  /** Reading a rendered result gives it back whenever its numbers fit in a
      long. */
  lemma RenderParseRoundTrip(x: EdOrgResult)
    requires InRange(x)
    ensures ParseRow(Render(x)) == Some(x)
  {
    ParseFormatRoundTrip(x.educationOrganizationId);
    if x.parentId.Some? {
      ParseFormatRoundTrip(x.parentId.value);
    }
  }

  function RenderAll(xs: seq<EdOrgResult>): (rows: seq<RawRow>)
    ensures |rows| == |xs|
    ensures forall i :: 0 <= i < |xs| ==> rows[i] == Render(xs[i])
  {
    seq(|xs|, i requires 0 <= i < |xs| => Render(xs[i]))
  }

  /** The reader loses nothing it is given in range. */
  lemma {:induction false} ReadBackAll(xs: seq<EdOrgResult>)
    requires forall i :: 0 <= i < |xs| ==> InRange(xs[i])
    ensures ParseRows(RenderAll(xs)) == xs
    decreases |xs|
  {
    if |xs| > 0 {
      var rows := RenderAll(xs);
      RenderParseRoundTrip(xs[0]);
      assert Head(rows[0]) == [xs[0]];
      assert rows[1..] == RenderAll(xs[1..]);
      ReadBackAll(xs[1..]);
      ParseRowsCons(rows);
    }
  }

  /** A row with a null id, name, discriminator or GUID never reaches the
      results. */
  lemma NullRequiredColumnDropsRow(row: RawRow)
    requires row.educationOrganizationId.None? || row.nameOfInstitution.None?
          || row.discriminator.None? || row.id.None?
    ensures ParseRows([row]) == []
  {
  }
}

=== FILE: sorting.dfy ===
/** Ordering of query results: a lexicographic order on integer key
    sequences, an insertion sort by such a key in either direction, and
    skip/take paging. */
module Ordering {
  import opened Base

  /** Lexicographic order; a proper prefix sorts first. */
  predicate LexLe(a: seq<int>, b: seq<int>)
    decreases |a|
  {
    |a| == 0 || (|b| > 0 && (a[0] < b[0] || (a[0] == b[0] && LexLe(a[1..], b[1..]))))
  }

  lemma {:induction false} LexReflexive(a: seq<int>)
    ensures LexLe(a, a)
    decreases |a|
  {
    if |a| > 0 {
      LexReflexive(a[1..]);
    }
  }

  lemma {:induction false} LexTotal(a: seq<int>, b: seq<int>)
    ensures LexLe(a, b) || LexLe(b, a)
    decreases |a|
  {
    if |a| > 0 && |b| > 0 && a[0] == b[0] {
      LexTotal(a[1..], b[1..]);
    }
  }

  lemma {:induction false} LexTransitive(a: seq<int>, b: seq<int>, c: seq<int>)
    requires LexLe(a, b) && LexLe(b, c)
    ensures LexLe(a, c)
    decreases |a|
  {
    if |a| > 0 && a[0] == b[0] && b[0] == c[0] {
      LexTransitive(a[1..], b[1..], c[1..]);
    }
  }

  lemma {:induction false} LexAntisymmetric(a: seq<int>, b: seq<int>)
    requires LexLe(a, b) && LexLe(b, a)
    ensures a == b
    decreases |a|
  {
    if |a| > 0 {
      LexAntisymmetric(a[1..], b[1..]);
      assert a == [a[0]] + a[1..] && b == [b[0]] + b[1..];
    }
  }

  /** The order on two-part keys: by the first part, then by the second. */
  lemma LexPair(a: int, b: int, c: int, d: int)
    ensures LexLe([a, b], [c, d]) <==> a < c || (a == c && b <= d)
  {
    assert [a, b][1..] == [b] && [c, d][1..] == [d];
    assert [b][1..] == [] && [d][1..] == [];
    assert LexLe([], []);
    assert LexLe([b], [d]) <==> b < d || b == d;
    assert LexLe([a, b], [c, d]) <==> a < c || (a == c && LexLe([b], [d]));
  }

  /** Whether `x` may precede `y` in the requested direction. */
  predicate Before<T>(key: T -> seq<int>, descending: bool, x: T, y: T) {
    if descending then LexLe(key(y), key(x)) else LexLe(key(x), key(y))
  }

  predicate Sorted<T>(s: seq<T>, key: T -> seq<int>, descending: bool) {
    forall i, j :: 0 <= i < j < |s| ==> Before(key, descending, s[i], s[j])
  }

  /** No two distinct elements share a key. */
  predicate KeyInjective<T(==)>(m: multiset<T>, key: T -> seq<int>) {
    forall x, y :: x in m && y in m && key(x) == key(y) ==> x == y
  }

  function Insert<T(==)>(x: T, s: seq<T>, key: T -> seq<int>, descending: bool): (r: seq<T>)
    requires Sorted(s, key, descending)
    ensures multiset(r) == multiset(s) + multiset{x}
    ensures Sorted(r, key, descending)
    decreases |s|
  {
    if |s| == 0 then [x]
    else if Before(key, descending, x, s[0]) then
      var r := [x] + s;
      assert Sorted(r, key, descending) by {
        forall j | 1 <= j < |r|
          ensures Before(key, descending, x, r[j])
        {
          if j > 1 {
            if descending {
              LexTransitive(key(r[j]), key(s[0]), key(x));
            } else {
              LexTransitive(key(x), key(s[0]), key(r[j]));
            }
          }
        }
      }
      r
    else
      var rest := Insert(x, s[1..], key, descending);
      var r := [s[0]] + rest;
      assert Before(key, descending, s[0], x) by {
        LexTotal(key(x), key(s[0]));
      }
      assert s == [s[0]] + s[1..];
      assert Sorted(r, key, descending) by {
        forall j | 1 <= j < |r|
          ensures Before(key, descending, s[0], r[j])
        {
          assert r[j] in multiset(rest);
          if r[j] != x {
            assert r[j] in multiset(s[1..]);
            var k :| 0 <= k < |s[1..]| && s[1..][k] == r[j];
            assert s[k + 1] == r[j];
          }
        }
      }
      r
  }

  /** OrderBy / OrderByDescending on one key: a permutation of the input in
      key order. */
  function SortBy<T(==)>(s: seq<T>, key: T -> seq<int>, descending: bool): (r: seq<T>)
    ensures multiset(r) == multiset(s)
    ensures Sorted(r, key, descending)
    decreases |s|
  {
    if |s| == 0 then []
    else
      assert s == [s[0]] + s[1..];
      Insert(s[0], SortBy(s[1..], key, descending), key, descending)
  }

  /** Two sorted arrangements of one multiset start with the same element
      when keys identify elements. */
  lemma SortedSameHead<T>(a: seq<T>, b: seq<T>, key: T -> seq<int>, descending: bool)
    requires Sorted(a, key, descending) && Sorted(b, key, descending)
    requires multiset(a) == multiset(b) && |a| > 0
    requires KeyInjective(multiset(a), key)
    ensures |b| > 0 && a[0] == b[0]
  {
    assert a[0] in multiset(b);
    assert b[0] in multiset(a);
    var j :| 0 <= j < |b| && b[j] == a[0];
    var i :| 0 <= i < |a| && a[i] == b[0];
    LexReflexive(key(a[0]));
    assert Before(key, descending, a[0], b[0]) by {
      if i > 0 { assert Before(key, descending, a[0], a[i]); }
    }
    assert Before(key, descending, b[0], a[0]) by {
      if j > 0 { assert Before(key, descending, b[0], b[j]); }
    }
    LexAntisymmetric(key(a[0]), key(b[0]));
  }

  lemma SortedTail<T>(a: seq<T>, key: T -> seq<int>, descending: bool)
    requires Sorted(a, key, descending) && |a| > 0
    ensures Sorted(a[1..], key, descending)
  {
    forall i, j | 0 <= i < j < |a[1..]|
      ensures Before(key, descending, a[1..][i], a[1..][j])
    {
      assert a[1..][i] == a[i + 1] && a[1..][j] == a[j + 1];
    }
  }

  lemma SameTails<T>(a: seq<T>, b: seq<T>)
    requires |a| > 0 && |b| > 0 && a[0] == b[0] && multiset(a) == multiset(b)
    ensures multiset(a[1..]) == multiset(b[1..])
    ensures multiset(a[1..]) <= multiset(a)
  {
    assert a == [a[0]] + a[1..] && b == [b[0]] + b[1..];
    assert multiset(a) == multiset{a[0]} + multiset(a[1..]);
    assert multiset(b) == multiset{b[0]} + multiset(b[1..]);
    assert multiset(a[1..]) == multiset(a) - multiset{a[0]};
    assert multiset(b[1..]) == multiset(b) - multiset{b[0]};
  }

  lemma KeyInjectiveSub<T>(m: multiset<T>, n: multiset<T>, key: T -> seq<int>)
    requires m <= n && KeyInjective(n, key)
    ensures KeyInjective(m, key)
  {
  }

  /** When keys identify elements, there is only one sorted arrangement of a
      multiset: the order of the input cannot show through. */
  lemma {:induction false} SortedUnique<T>(a: seq<T>, b: seq<T>, key: T -> seq<int>, descending: bool)
    requires Sorted(a, key, descending) && Sorted(b, key, descending)
    requires multiset(a) == multiset(b)
    requires KeyInjective(multiset(a), key)
    ensures a == b
    decreases |a|
  {
    if |a| == 0 {
      assert |multiset(b)| == 0;
    } else {
      SortedSameHead(a, b, key, descending);
      SameTails(a, b);
      KeyInjectiveSub(multiset(a[1..]), multiset(a), key);
      SortedTail(a, key, descending);
      SortedTail(b, key, descending);
      SortedUnique(a[1..], b[1..], key, descending);
      assert a == [a[0]] + a[1..] && b == [b[0]] + b[1..];
    }
  }

  function Reverse<T>(s: seq<T>): (r: seq<T>)
    ensures |r| == |s|
    ensures forall i :: 0 <= i < |s| ==> r[i] == s[|s| - 1 - i]
  {
    seq(|s|, i requires 0 <= i < |s| => s[|s| - 1 - i])
  }

  lemma {:induction false} ReverseMultiset<T>(s: seq<T>)
    ensures multiset(Reverse(s)) == multiset(s)
    decreases |s|
  {
    if |s| > 0 {
      ReverseMultiset(s[1..]);
      assert Reverse(s) == Reverse(s[1..]) + [s[0]];
      assert s == [s[0]] + s[1..];
    }
  }

  /** With keys that identify elements, sorting descending gives exactly the
      reverse of sorting ascending. */
  lemma DescendingIsReversedAscending<T>(s: seq<T>, key: T -> seq<int>)
    requires KeyInjective(multiset(s), key)
    ensures SortBy(s, key, true) == Reverse(SortBy(s, key, false))
  {
    var up := SortBy(s, key, false);
    ReverseMultiset(up);
    SortedUnique(SortBy(s, key, true), Reverse(up), key, true);
  }

  /** Skip: LINQ skips nothing for a negative count. */
  function Skip<T>(s: seq<T>, n: int): (r: seq<T>)
    ensures |r| == if n <= 0 then |s| else if n >= |s| then 0 else |s| - n
    ensures forall i :: 0 <= i < |r| ==> r[i] == s[|s| - |r| + i]
  {
    if n <= 0 then s else if n >= |s| then [] else s[n..]
  }

  /** Take: LINQ takes nothing for a negative count. */
  function Take<T>(s: seq<T>, n: int): (r: seq<T>)
    ensures |r| == if n <= 0 then 0 else if n >= |s| then |s| else n
    ensures r <= s
  {
    if n <= 0 then [] else if n >= |s| then s else s[..n]
  }

  /** Where a page starts: the offset clamped to the listing, zero when
      absent. */
  function PageStart(n: nat, offset: Option<int>): (lo: nat)
    ensures lo <= n
    ensures offset.None? ==> lo == 0
    ensures offset.Some? && 0 <= offset.value <= n ==> lo == offset.value
  {
    if offset.None? || offset.value <= 0 then 0 else if offset.value >= n then n else offset.value
  }

  /** Paginate: skip the offset (none when absent), then take the limit (the
      rest when absent). The page is the contiguous run of the listing that
      starts at the clamped offset. */
  function Page<T>(s: seq<T>, offset: Option<int>, limit: Option<int>): (r: seq<T>)
    ensures limit.Some? ==> |r| <= if limit.value < 0 then 0 else limit.value
    ensures limit.None? ==> |r| == |s| - PageStart(|s|, offset)
    ensures limit.Some? && limit.value >= 0 && PageStart(|s|, offset) + limit.value <= |s| ==> |r| == limit.value
    ensures PageStart(|s|, offset) + |r| <= |s| && r == s[PageStart(|s|, offset)..PageStart(|s|, offset) + |r|]
  {
    var rest := if offset.None? then s else Skip(s, offset.value);
    assert rest == s[PageStart(|s|, offset)..];
    if limit.None? then rest else Take(rest, limit.value)
  }

  /** A page holds only elements of the listing. */
  lemma PageWithin<T>(s: seq<T>, offset: Option<int>, limit: Option<int>)
    ensures forall x :: x in Page(s, offset, limit) ==> x in s
  {
    var r := Page(s, offset, limit);
    var lo := PageStart(|s|, offset);
    forall x | x in r
      ensures x in s
    {
      var i :| 0 <= i < |r| && r[i] == x;
      assert s[lo + i] == x;
    }
  }

  /** Consecutive pages tile the listing: the page at `o` of size `a`
      followed by the page at `o + a` of size `b` is the page at `o` of size
      `a + b`. */
  lemma PagesTile<T>(s: seq<T>, o: nat, a: nat, b: nat)
    ensures Page(s, Some(o), Some(a)) + Page(s, Some(o + a), Some(b)) == Page(s, Some(o), Some(a + b))
  {
  }
}

=== FILE: synchronizer.dfy ===
/** EducationOrganizationService.Execute and ProcessOdsInstanceAsync: the
    configuration guards, the tenant branch, the choice of instances, and the
    per-instance refresh (decrypt, read the remote ODS, reconcile the cache).
    Instances are processed one after another; the first exception ends the
    run, and what earlier instances committed stays. */
module EducationOrganizationService {
  import opened Base
  import opened Text
  import opened DatabaseEngines
  import opened AdminDatabase
  import opened TenantContexts
  import opened RowReader
  import opened CacheRefresh

  datatype AppSettings = AppSettings(
    multiTenancy: bool,
    encryptionKey: Option<string>,
    databaseEngine: Option<string>)

  /** The calls into code outside the model. */
  datatype Collaborators = Collaborators(
    parseEngine: string -> Result<string>,              // DatabaseEngineEnum.Parse
    fromBase64: string -> Result<seq<bv8>>,             // Convert.FromBase64String
    tryDecrypt: (string, seq<bv8>) -> Option<string>)   // ISymmetricStringEncryptionProvider.TryDecrypt

  /** Everything the service is constructed with: settings, collaborators,
      the tenant provider, the default contexts' connection strings, and the
      remote ODS databases reachable by decrypted connection string. */
  datatype Environment = Environment(
    settings: AppSettings,
    calls: Collaborators,
    provider: Provider,
    defaultUsersConnection: string,
    defaultAdminConnection: string,
    remotes: map<string, ReaderStream>)

  const MissingEncryptionKey: Exception := Exception(InvalidOperation, "EncryptionKey can't be null.")

  /** NotFoundException<string>(nameof(AppSettings), nameof(AppSettings.DatabaseEngine)). */
  const MissingDatabaseEngine: Exception := Exception(NotFound, "AppSettings DatabaseEngine")

  /** `FirstOrDefaultAsync(oi => oi.OdsInstanceId == id)`. */
  function FirstWithId(instances: seq<OdsInstance>, id: int): (r: Option<OdsInstance>)
    ensures r.None? <==> forall i :: 0 <= i < |instances| ==> instances[i].odsInstanceId != id
    ensures r.Some? ==> exists i :: 0 <= i < |instances| && instances[i] == r.value && r.value.odsInstanceId == id
                          && forall j :: 0 <= j < i ==> instances[j].odsInstanceId != id
  {
    if |instances| == 0 then None
    else if instances[0].odsInstanceId == id then Some(instances[0])
    else
      var r := FirstWithId(instances[1..], id);
      assert forall i :: 1 <= i < |instances| ==> instances[i] == instances[1..][i - 1];
      r
  }

  /** GetEducationOrganizationsAsync: dispatch on the engine, open the remote
      database, and read it tolerantly. */
  function FetchSource(remotes: map<string, ReaderStream>, connection: string, engine: string): (r: Result<seq<EdOrgResult>>)
    ensures Match(engine).None? ==> r == Failure(UnsupportedEngine(engine))
    ensures r.Success? <==> Match(engine).Some? && connection in remotes
    ensures r.Success? ==> r.value == ReadAll(remotes[connection])
  {
    if Match(engine).None? then Failure(UnsupportedEngine(engine))
    else if connection !in remotes then Failure(Unreachable(connection))
    else Success(ReadAll(remotes[connection]))
  }

  /** The effect of one committed refresh on the administrative database. */
  function Commit(dbs: Databases, adminConnection: string, inst: OdsInstance, src: seq<EdOrgResult>, now: DateTime): Databases
    requires adminConnection in dbs
  {
    var db := dbs[adminConnection];
    dbs[adminConnection := db.(edOrgs := Reconcile(db.edOrgs, inst, src, now))]
  }

  /** RefreshEducationOrganizationsAsync for one instance. A malformed key
      throws before decryption; a failed decryption is skipped silently; an
      unsupported engine or an unreachable database throws before anything is
      committed. */
  function RefreshInstance(env: Environment, dbs: Databases, adminConnection: string, key: string, engine: string,
                           inst: OdsInstance, now: DateTime): (r: Step<Databases>)
    ensures r.thrown.Some? ==> r.state == dbs
    ensures env.calls.fromBase64(key).Failure? ==> r == Step(dbs, Some(env.calls.fromBase64(key).error))
    ensures env.calls.fromBase64(key).Success? && env.calls.tryDecrypt(inst.connectionString, env.calls.fromBase64(key).value).None?
            ==> r == Step(dbs, None)
    ensures r.state.Keys == dbs.Keys
    ensures forall c :: c in dbs && c != adminConnection ==> r.state[c] == dbs[c]
    ensures adminConnection in dbs ==>
              r.state[adminConnection].odsInstances == dbs[adminConnection].odsInstances
              && r.state[adminConnection].jobStatuses == dbs[adminConnection].jobStatuses
  {
    match env.calls.fromBase64(key)
    case Failure(e) => Step(dbs, Some(e))
    case Success(bytes) =>
      match env.calls.tryDecrypt(inst.connectionString, bytes)
      case None => Step(dbs, None)
      case Some(connection) =>
        match FetchSource(env.remotes, connection, engine)
        case Failure(e) => Step(dbs, Some(e))
        case Success(src) =>
          if adminConnection !in dbs then Step(dbs, Some(Unreachable(adminConnection)))
          else Step(Commit(dbs, adminConnection, inst, src, now), None)
  }

  /** Whether a key belongs to none of the given instances. */
  predicate Outside(k: Key, instances: seq<OdsInstance>) {
    forall j :: 0 <= j < |instances| ==> instances[j].odsInstanceId != k.0
  }

  /** The foreach over every instance, in enumeration order, with no catch:
      the first exception ends the loop. Only the cache of the administrative
      database changes, and only for the instances visited. */
  function RefreshAll(env: Environment, dbs: Databases, adminConnection: string, key: string, engine: string,
                      instances: seq<OdsInstance>, now: DateTime): (r: Step<Databases>)
    ensures r.state.Keys == dbs.Keys
    ensures forall c :: c in dbs && c != adminConnection ==> r.state[c] == dbs[c]
    ensures adminConnection in dbs ==>
              && r.state[adminConnection].odsInstances == dbs[adminConnection].odsInstances
              && r.state[adminConnection].jobStatuses == dbs[adminConnection].jobStatuses
              && forall k :: Outside(k, instances) ==>
                   (k in r.state[adminConnection].edOrgs.rows <==> k in dbs[adminConnection].edOrgs.rows)
                   && (k in dbs[adminConnection].edOrgs.rows ==>
                         r.state[adminConnection].edOrgs.rows[k] == dbs[adminConnection].edOrgs.rows[k])
    decreases |instances|
  {
    if |instances| == 0 then Step(dbs, None)
    else
      var first := RefreshInstance(env, dbs, adminConnection, key, engine, instances[0], now);
      if first.thrown.Some? then first
      else
        var rest := RefreshAll(env, first.state, adminConnection, key, engine, instances[1..], now);
        assert forall k :: Outside(k, instances) ==> Outside(k, instances[1..]) by {
          forall k | Outside(k, instances)
            ensures Outside(k, instances[1..])
          {
            forall j | 0 <= j < |instances[1..]|
              ensures instances[1..][j].odsInstanceId != k.0
            {
              assert instances[1..][j] == instances[j + 1];
            }
          }
        }
        rest
  }

  /** ProcessOdsInstanceAsync: read the instances from the users context,
      then refresh the one named by `instanceId` (or none, when no instance has
      that id) or all of them. */
  function Process(env: Environment, dbs: Databases, usersConnection: string, adminConnection: string,
                   key: string, engine: string, instanceId: Option<int>, now: DateTime): (r: Step<Databases>)
    ensures usersConnection !in dbs ==> r == Step(dbs, Some(Unreachable(usersConnection)))
    ensures (usersConnection in dbs && instanceId.Some?
             && FirstWithId(dbs[usersConnection].odsInstances, instanceId.value).None?) ==> r == Step(dbs, None)
    ensures usersConnection in dbs && instanceId.Some? && FirstWithId(dbs[usersConnection].odsInstances, instanceId.value).Some? ==>
              r == RefreshInstance(env, dbs, adminConnection, key, engine,
                                   FirstWithId(dbs[usersConnection].odsInstances, instanceId.value).value, now)
    ensures usersConnection in dbs && instanceId.None? ==>
              r == RefreshAll(env, dbs, adminConnection, key, engine, dbs[usersConnection].odsInstances, now)
    ensures r.state.Keys == dbs.Keys
    ensures forall c :: c in dbs && c != adminConnection ==> r.state[c] == dbs[c]
    ensures adminConnection in dbs ==>
              r.state[adminConnection].odsInstances == dbs[adminConnection].odsInstances
              && r.state[adminConnection].jobStatuses == dbs[adminConnection].jobStatuses
  {
    if usersConnection !in dbs then Step(dbs, Some(Unreachable(usersConnection)))
    else
      var instances := dbs[usersConnection].odsInstances;
      match instanceId
      case Some(id) =>
        (match FirstWithId(instances, id)
         case None => Step(dbs, None)
         case Some(inst) => RefreshInstance(env, dbs, adminConnection, key, engine, inst, now))
      case None => RefreshAll(env, dbs, adminConnection, key, engine, instances, now)
  }

  /** The three configuration guards of Execute pass: a key, an engine
      setting, and an engine name that parses. */
  predicate Configured(env: Environment) {
    && env.settings.encryptionKey.Some?
    && env.settings.databaseEngine.Some?
    && env.calls.parseEngine(env.settings.databaseEngine.value).Success?
  }

  /** The engine name a configured environment parses to. */
  function ConfiguredEngine(env: Environment): string
    requires Configured(env)
  {
    env.calls.parseEngine(env.settings.databaseEngine.value).value
  }

  /** Execute: the three configuration guards in order, then the tenant
      branch. With multi-tenancy on, a null or empty tenant does nothing, and a
      tenant's contexts are resolved before any instance is read. */
  function Execute(env: Environment, dbs: Databases, tenantName: Option<string>, instanceId: Option<int>,
                   now: DateTime): (r: Step<Databases>)
    ensures env.settings.encryptionKey.None? ==> r == Step(dbs, Some(MissingEncryptionKey))
    ensures env.settings.encryptionKey.Some? && env.settings.databaseEngine.None? ==> r == Step(dbs, Some(MissingDatabaseEngine))
    ensures env.settings.encryptionKey.Some? && env.settings.databaseEngine.Some?
            && env.calls.parseEngine(env.settings.databaseEngine.value).Failure? ==>
              r == Step(dbs, Some(env.calls.parseEngine(env.settings.databaseEngine.value).error))
    ensures env.settings.multiTenancy && IsNullOrEmpty(tenantName) ==> r.state == dbs
    ensures env.settings.multiTenancy && IsNullOrEmpty(tenantName) && r.thrown.Some? ==>
              r.thrown.value in {MissingEncryptionKey, MissingDatabaseEngine}
              || env.calls.parseEngine(env.settings.databaseEngine.value).Failure?
    ensures Configured(env) && !env.settings.multiTenancy ==>
              r == Process(env, dbs, env.defaultUsersConnection, env.defaultAdminConnection,
                           env.settings.encryptionKey.value, ConfiguredEngine(env), instanceId, now)
    ensures Configured(env) && env.settings.multiTenancy && !IsNullOrEmpty(tenantName) ==>
              var admin := GetAdminApiDbContext(env.provider, tenantName.value);
              var users := GetUsersContext(env.provider, tenantName.value);
              && (admin.Failure? ==> r == Step(dbs, Some(admin.error)))
              && (admin.Success? && users.Failure? ==> r == Step(dbs, Some(users.error)))
              && (admin.Success? && users.Success? ==>
                    r == Process(env, dbs, users.value.connectionString, admin.value.connectionString,
                                 env.settings.encryptionKey.value, ConfiguredEngine(env), None, now))
    ensures r.state.Keys == dbs.Keys
  {
    if env.settings.encryptionKey.None? then Step(dbs, Some(MissingEncryptionKey))
    else if env.settings.databaseEngine.None? then Step(dbs, Some(MissingDatabaseEngine))
    else
      var key := env.settings.encryptionKey.value;
      match env.calls.parseEngine(env.settings.databaseEngine.value)
      case Failure(e) => Step(dbs, Some(e))
      case Success(engine) =>
        if env.settings.multiTenancy then
          if IsNullOrEmpty(tenantName) then Step(dbs, None)
          else
            match GetAdminApiDbContext(env.provider, tenantName.value)
            case Failure(e) => Step(dbs, Some(e))
            case Success(admin) =>
              match GetUsersContext(env.provider, tenantName.value)
              case Failure(e) => Step(dbs, Some(e))
              case Success(users) =>
                Process(env, dbs, users.connectionString, admin.connectionString, key, engine, None, now)
        else
          Process(env, dbs, env.defaultUsersConnection, env.defaultAdminConnection, key, engine, instanceId, now)
  }

  /** With multi-tenancy on, the instance id is not forwarded: the result is
      the same whatever id is asked for. */
  lemma MultiTenantIgnoresInstanceId(env: Environment, dbs: Databases, tenantName: Option<string>,
                                     id1: Option<int>, id2: Option<int>, now: DateTime)
    requires env.settings.multiTenancy
    ensures Execute(env, dbs, tenantName, id1, now) == Execute(env, dbs, tenantName, id2, now)
  {
  }

  /** An unknown tenant fails with KeyNotFound and changes nothing, whatever
      the engine string says. */
  lemma UnknownTenantChangesNothing(env: Environment, dbs: Databases, tenant: string, instanceId: Option<int>, now: DateTime)
    requires env.settings.multiTenancy
    requires env.settings.encryptionKey.Some? && env.settings.databaseEngine.Some?
    requires env.calls.parseEngine(env.settings.databaseEngine.value).Success?
    requires tenant != "" && tenant !in env.provider.tenants
    ensures Execute(env, dbs, Some(tenant), instanceId, now) == Step(dbs, Some(TenantNotFound(tenant)))
  {
  }

  /** The loop over a concatenation of instance lists is the loop over the
      first list followed, unless it threw, by the loop over the second. */
  lemma {:induction false} RefreshAllAppend(env: Environment, dbs: Databases, adminConnection: string, key: string,
                                            engine: string, a: seq<OdsInstance>, b: seq<OdsInstance>, now: DateTime)
    ensures var first := RefreshAll(env, dbs, adminConnection, key, engine, a, now);
      RefreshAll(env, dbs, adminConnection, key, engine, a + b, now) ==
        if first.thrown.Some? then first else RefreshAll(env, first.state, adminConnection, key, engine, b, now)
    decreases |a|
  {
    if |a| == 0 {
      assert a + b == b;
    } else {
      assert (a + b)[0] == a[0];
      assert (a + b)[1..] == a[1..] + b;
      var s := RefreshInstance(env, dbs, adminConnection, key, engine, a[0], now);
      if s.thrown.None? {
        RefreshAllAppend(env, s.state, adminConnection, key, engine, a[1..], b, now);
      }
    }
  }

  /** An instance that throws ends the loop: the instances after it are never
      visited, and the exception escapes with the state the earlier instances
      committed. */
  lemma ThrowAborts(env: Environment, dbs: Databases, adminConnection: string, key: string, engine: string,
                    a: seq<OdsInstance>, inst: OdsInstance, b: seq<OdsInstance>, now: DateTime)
    requires RefreshAll(env, dbs, adminConnection, key, engine, a, now).thrown.None?
    requires RefreshInstance(env, RefreshAll(env, dbs, adminConnection, key, engine, a, now).state,
                             adminConnection, key, engine, inst, now).thrown.Some?
    ensures RefreshAll(env, dbs, adminConnection, key, engine, a + [inst] + b, now)
         == RefreshInstance(env, RefreshAll(env, dbs, adminConnection, key, engine, a, now).state,
                            adminConnection, key, engine, inst, now)
  {
    RefreshAllAppend(env, dbs, adminConnection, key, engine, a, [inst] + b, now);
    assert a + [inst] + b == a + ([inst] + b);
    var s := RefreshAll(env, dbs, adminConnection, key, engine, a, now).state;
    assert ([inst] + b)[0] == inst;
  }

  /** A requested instance id that no instance has causes no change and no
      exception. */
  lemma UnknownInstanceChangesNothing(env: Environment, dbs: Databases, id: int, now: DateTime)
    requires !env.settings.multiTenancy
    requires env.settings.encryptionKey.Some? && env.settings.databaseEngine.Some?
    requires env.calls.parseEngine(env.settings.databaseEngine.value).Success?
    requires env.defaultUsersConnection in dbs
    requires forall i :: 0 <= i < |dbs[env.defaultUsersConnection].odsInstances| ==>
               dbs[env.defaultUsersConnection].odsInstances[i].odsInstanceId != id
    ensures Execute(env, dbs, None, Some(id), now) == Step(dbs, None)
    ensures Execute(env, dbs, Some("any"), Some(id), now) == Step(dbs, None)
  {
  }

  /** Every remote result set lists each education organization once (the
      primary key of edfi.EducationOrganization). */
  predicate ValidRemotes(remotes: map<string, ReaderStream>) {
    forall c :: c in remotes ==> DistinctIds(ParseRows(remotes[c].rows))
  }

  lemma PrefixDistinct(a: seq<EdOrgResult>, b: seq<EdOrgResult>)
    requires a <= b && DistinctIds(b)
    ensures DistinctIds(a)
  {
    forall i, j | 0 <= i < j < |a|
      ensures a[i].educationOrganizationId != a[j].educationOrganizationId
    {
      assert a[i] == b[i] && a[j] == b[j];
    }
  }

  /** A successful refresh of one instance leaves that instance's cache ids
      equal to the ids read from its ODS, each carrying the values read and
      `now`, and leaves every other instance's rows as they were. */
  lemma RefreshInstanceEffect(env: Environment, dbs: Databases, adminConnection: string, key: string, engine: string,
                              inst: OdsInstance, now: DateTime)
    requires ValidRemotes(env.remotes)
    requires adminConnection in dbs && WellFormed(dbs[adminConnection].edOrgs)
    requires env.calls.fromBase64(key).Success?
    requires env.calls.tryDecrypt(inst.connectionString, env.calls.fromBase64(key).value).Some?
    requires Match(engine).Some?
    requires env.calls.tryDecrypt(inst.connectionString, env.calls.fromBase64(key).value).value in env.remotes
    ensures var r := RefreshInstance(env, dbs, adminConnection, key, engine, inst, now);
      var src := ReadAll(env.remotes[env.calls.tryDecrypt(inst.connectionString, env.calls.fromBase64(key).value).value]);
      var before := dbs[adminConnection].edOrgs;
      var after := r.state[adminConnection].edOrgs;
      && r.thrown.None?
      && WellFormed(after)
      && InstanceIds(after, inst.odsInstanceId) == SourceIds(src)
      && (forall k: Key :: k.0 != inst.odsInstanceId ==> (k in after.rows <==> k in before.rows))
      && (forall k: Key :: k.0 != inst.odsInstanceId && k in before.rows ==> after.rows[k] == before.rows[k])
      && forall i :: 0 <= i < |src| ==>
           var k := (inst.odsInstanceId, src[i].educationOrganizationId);
           && k in after.rows
           && (k in before.rows ==> after.rows[k] == Refreshed(before.rows[k], src[i], now))
           && (k !in before.rows ==> after.rows[k] == Inserted(inst, src[i], after.rows[k].id, now))
  {
    var conn := env.calls.tryDecrypt(inst.connectionString, env.calls.fromBase64(key).value).value;
    var src := ReadAll(env.remotes[conn]);
    PrefixDistinct(src, ParseRows(env.remotes[conn].rows));
    ReconcileWellFormed(dbs[adminConnection].edOrgs, inst, src, now);
    ReconcileContents(dbs[adminConnection].edOrgs, inst, src, now);
  }

  /** The connection string an instance decrypts to under the key, if the key
      is valid base 64 and decryption succeeds. */
  function Decrypted(env: Environment, key: string, inst: OdsInstance): Option<string> {
    match env.calls.fromBase64(key)
    case Failure(_) => None
    case Success(bytes) => env.calls.tryDecrypt(inst.connectionString, bytes)
  }

  /** No two listed instances share an id (the primary key of OdsInstances). */
  predicate DistinctInstanceIds(instances: seq<OdsInstance>) {
    forall i, j :: 0 <= i < j < |instances| ==> instances[i].odsInstanceId != instances[j].odsInstanceId
  }

  /** The rows of one instance are the same in two tables. */
  ghost predicate SameInstanceRows(a: EdOrgTable, b: EdOrgTable, instanceId: int) {
    forall k: Key :: k.0 == instanceId ==>
      (k in a.rows <==> k in b.rows) && (k in a.rows ==> a.rows[k] == b.rows[k])
  }

  lemma SameInstanceRowsIds(a: EdOrgTable, b: EdOrgTable, instanceId: int)
    requires SameInstanceRows(a, b, instanceId)
    ensures InstanceIds(a, instanceId) == InstanceIds(b, instanceId)
  {
    forall id | id in InstanceIds(a, instanceId)
      ensures id in InstanceIds(b, instanceId)
    {
      assert (instanceId, id) in a.rows;
    }
    forall id | id in InstanceIds(b, instanceId)
      ensures id in InstanceIds(a, instanceId)
    {
      assert (instanceId, id) in b.rows;
    }
  }

  /** What a completed run over a list of instances leaves in the cache: each
      instance that decrypts holds exactly the ids its ODS returned, and each
      instance whose connection string fails to decrypt keeps its rows. With
      instances 1, 2 and 3 and decryption failing for 2, the cache of 1 and 3
      is refreshed, that of 2 is untouched, and nothing is thrown. */
  lemma {:induction false} RefreshAllEffect(env: Environment, dbs: Databases, adminConnection: string, key: string,
                                            engine: string, instances: seq<OdsInstance>, now: DateTime)
    requires ValidRemotes(env.remotes)
    requires adminConnection in dbs && WellFormed(dbs[adminConnection].edOrgs)
    requires DistinctInstanceIds(instances)
    requires RefreshAll(env, dbs, adminConnection, key, engine, instances, now).thrown.None?
    ensures var after := RefreshAll(env, dbs, adminConnection, key, engine, instances, now).state[adminConnection].edOrgs;
      && WellFormed(after)
      && forall i :: 0 <= i < |instances| ==>
           if Decrypted(env, key, instances[i]).Some? then
             && Decrypted(env, key, instances[i]).value in env.remotes
             && InstanceIds(after, instances[i].odsInstanceId)
                == SourceIds(ReadAll(env.remotes[Decrypted(env, key, instances[i]).value]))
           else
             SameInstanceRows(after, dbs[adminConnection].edOrgs, instances[i].odsInstanceId)
    decreases |instances|
  {
    if |instances| > 0 {
      var inst := instances[0];
      var rest := instances[1..];
      var first := RefreshInstance(env, dbs, adminConnection, key, engine, inst, now);
      assert first.thrown.None?;
      var mid := first.state;
      var before := dbs[adminConnection].edOrgs;
      var after := RefreshAll(env, dbs, adminConnection, key, engine, instances, now).state[adminConnection].edOrgs;
      assert RefreshAll(env, dbs, adminConnection, key, engine, instances, now)
          == RefreshAll(env, mid, adminConnection, key, engine, rest, now);
      // The head's own effect on the cache.
      if Decrypted(env, key, inst).Some? {
        RefreshInstanceEffect(env, dbs, adminConnection, key, engine, inst, now);
      } else {
        assert mid == dbs;
      }
      assert WellFormed(mid[adminConnection].edOrgs);
      assert forall k: Key :: k.0 != inst.odsInstanceId ==>
        (k in mid[adminConnection].edOrgs.rows <==> k in before.rows)
        && (k in before.rows ==> mid[adminConnection].edOrgs.rows[k] == before.rows[k]);
      assert DistinctInstanceIds(rest) by {
        forall i, j | 0 <= i < j < |rest|
          ensures rest[i].odsInstanceId != rest[j].odsInstanceId
        {
          assert rest[i] == instances[i + 1] && rest[j] == instances[j + 1];
        }
      }
      RefreshAllEffect(env, mid, adminConnection, key, engine, rest, now);
      // The rest of the loop leaves the head's rows alone.
      assert SameInstanceRows(after, mid[adminConnection].edOrgs, inst.odsInstanceId) by {
        forall k: Key | k.0 == inst.odsInstanceId
          ensures Outside(k, rest)
        {
          forall j | 0 <= j < |rest|
            ensures rest[j].odsInstanceId != k.0
          {
            assert rest[j] == instances[j + 1];
          }
        }
      }
      forall i | 0 <= i < |instances|
        ensures if Decrypted(env, key, instances[i]).Some? then
                  && Decrypted(env, key, instances[i]).value in env.remotes
                  && InstanceIds(after, instances[i].odsInstanceId)
                     == SourceIds(ReadAll(env.remotes[Decrypted(env, key, instances[i]).value]))
                else
                  SameInstanceRows(after, before, instances[i].odsInstanceId)
      {
        if i == 0 {
          SameInstanceRowsIds(after, mid[adminConnection].edOrgs, inst.odsInstanceId);
        } else {
          assert instances[i] == rest[i - 1];
          assert instances[i].odsInstanceId != inst.odsInstanceId;
        }
      }
    }
  }

  /** ProcessOdsInstanceAsync without an instance id, when it completes: the
      batch effect of refreshing every registered instance. */
  lemma ProcessAllEffect(env: Environment, dbs: Databases, usersConnection: string, adminConnection: string,
                         key: string, engine: string, now: DateTime)
    requires ValidRemotes(env.remotes)
    requires adminConnection in dbs && WellFormed(dbs[adminConnection].edOrgs)
    requires usersConnection in dbs && DistinctInstanceIds(dbs[usersConnection].odsInstances)
    requires Process(env, dbs, usersConnection, adminConnection, key, engine, None, now).thrown.None?
    ensures var instances := dbs[usersConnection].odsInstances;
      var after := Process(env, dbs, usersConnection, adminConnection, key, engine, None, now).state[adminConnection].edOrgs;
      && WellFormed(after)
      && forall i :: 0 <= i < |instances| ==>
           if Decrypted(env, key, instances[i]).Some? then
             && Decrypted(env, key, instances[i]).value in env.remotes
             && InstanceIds(after, instances[i].odsInstanceId)
                == SourceIds(ReadAll(env.remotes[Decrypted(env, key, instances[i]).value]))
           else
             SameInstanceRows(after, dbs[adminConnection].edOrgs, instances[i].odsInstanceId)
  {
    RefreshAllEffect(env, dbs, adminConnection, key, engine, dbs[usersConnection].odsInstances, now);
  }
}

=== FILE: tenant_contexts.dfy ===
/** TenantSpecificDbContextProvider: resolves a tenant identifier to a data
    context bound to that tenant's administrative database, for the configured
    engine. */
module TenantContexts {
  import opened Base
  import opened Text
  import opened DatabaseEngines

  datatype TenantConfiguration = TenantConfiguration(
    tenantIdentifier: string,
    adminConnectionString: string,
    securityConnectionString: string)

  /** Which context type is built: AdminApiDbContext or a users context. */
  datatype ContextRole = AdminApi | Users

  /** A constructed data context: what it is bound to and how it names
      identifiers (PostgreSQL contexts use the lower-case convention). */
  datatype DbContext = DbContext(
    role: ContextRole,
    engine: EngineKind,
    connectionString: string,
    lowerCaseNaming: bool)

  /** The provider after construction: the tenant map is a snapshot taken once,
      the engine string is kept as configured. */
  datatype Provider = Provider(tenants: map<string, TenantConfiguration>, dbEngine: string)

  /** The constructor: refuses a missing engine, otherwise snapshots the tenant
      configuration. The engine text itself is not validated here. */
  function NewProvider(tenants: map<string, TenantConfiguration>, databaseEngine: Option<string>): (r: Result<Provider>)
    ensures r.Failure? <==> databaseEngine.None?
    ensures r.Failure? ==> r.error.kind == ArgumentNull
    ensures r.Success? ==> r.value.tenants == tenants && r.value.dbEngine == databaseEngine.value
  {
    if databaseEngine.None? then Failure(Exception(ArgumentNull, "DatabaseEngine cannot be null. (Parameter 'options')"))
    else Success(Provider(tenants, databaseEngine.value))
  }

  function TenantNotFound(tenant: string): Exception {
    Exception(KeyNotFound, "The given key '" + tenant + "' was not present in the dictionary.")
  }

  /** Shared body of both getters: dictionary lookup first, engine dispatch
      second. */
  function GetContext(p: Provider, role: ContextRole, tenant: string): (r: Result<DbContext>)
    ensures tenant !in p.tenants ==> r == Failure(TenantNotFound(tenant))
    ensures tenant in p.tenants && Match(p.dbEngine).None? ==> r == Failure(UnsupportedEngine(p.dbEngine))
    ensures r.Success? <==> tenant in p.tenants && Match(p.dbEngine).Some?
    ensures r.Success? ==>
      && r.value.role == role
      && Some(r.value.engine) == Match(p.dbEngine)
      && r.value.connectionString == p.tenants[tenant].adminConnectionString
      && (r.value.lowerCaseNaming <==> r.value.engine == PostgreSql)
  {
    if tenant !in p.tenants then Failure(TenantNotFound(tenant))
    else
      var config := p.tenants[tenant];
      match Match(p.dbEngine)
      case None => Failure(UnsupportedEngine(p.dbEngine))
      case Some(k) => Success(DbContext(role, k, config.adminConnectionString, k == PostgreSql))
  }

  function GetAdminApiDbContext(p: Provider, tenant: string): (r: Result<DbContext>)
    ensures tenant !in p.tenants ==> r.Failure? && r.error.kind == KeyNotFound
    ensures tenant in p.tenants ==>
      || r == Failure(UnsupportedEngine(p.dbEngine))
      || (&& r.Success? && r.value.role == AdminApi
          && r.value.connectionString == p.tenants[tenant].adminConnectionString
          && Some(r.value.engine) == Match(p.dbEngine)
          && (r.value.lowerCaseNaming <==> r.value.engine == PostgreSql))
    ensures r.Success? <==> tenant in p.tenants && Match(p.dbEngine).Some?
  {
    GetContext(p, AdminApi, tenant)
  }

  function GetUsersContext(p: Provider, tenant: string): (r: Result<DbContext>)
    ensures tenant !in p.tenants ==> r.Failure? && r.error.kind == KeyNotFound
    ensures tenant in p.tenants ==>
      || r == Failure(UnsupportedEngine(p.dbEngine))
      || (&& r.Success? && r.value.role == Users
          && r.value.connectionString == p.tenants[tenant].adminConnectionString
          && Some(r.value.engine) == Match(p.dbEngine)
          && (r.value.lowerCaseNaming <==> r.value.engine == PostgreSql))
    ensures r.Success? <==> tenant in p.tenants && Match(p.dbEngine).Some?
  {
    GetContext(p, Users, tenant)
  }

  /** The tenant lookup precedes the engine check: an unknown tenant is a
      KeyNotFoundException whatever the engine string is. */
  lemma UnknownTenantBeatsBadEngine(tenants: map<string, TenantConfiguration>, engine: string, tenant: string)
    requires tenant !in tenants
    ensures GetAdminApiDbContext(Provider(tenants, engine), tenant).error.kind == KeyNotFound
    ensures GetUsersContext(Provider(tenants, engine), tenant).error.kind == KeyNotFound
  {
  }

  /** Both getters succeed or fail together, with the same exception, and on
      success are bound to the same connection string with the same engine and
      naming convention. */
  lemma GettersAgree(p: Provider, tenant: string)
    ensures GetAdminApiDbContext(p, tenant).Success? <==> GetUsersContext(p, tenant).Success?
    ensures GetAdminApiDbContext(p, tenant).Failure? ==>
              GetAdminApiDbContext(p, tenant).error == GetUsersContext(p, tenant).error
    ensures GetAdminApiDbContext(p, tenant).Success? ==>
              var a := GetAdminApiDbContext(p, tenant).value;
              var u := GetUsersContext(p, tenant).value;
              a.connectionString == u.connectionString && a.engine == u.engine
              && a.lowerCaseNaming == u.lowerCaseNaming && a.role == AdminApi && u.role == Users
  {
  }

  /** The engine string is matched ignoring case, so configurations differing
      only in letter case resolve every tenant identically. */
  lemma EngineCaseDoesNotMatter(tenants: map<string, TenantConfiguration>, e1: string, e2: string, role: ContextRole, tenant: string)
    requires EqualsIgnoreCase(e1, e2)
    requires tenant in tenants
    requires Match(e1).Some?
    ensures GetContext(Provider(tenants, e1), role, tenant) == GetContext(Provider(tenants, e2), role, tenant)
  {
    MatchIsCaseInsensitive(e1, e2);
  }
}

=== FILE: text.dfy ===
/** The few string facilities of the .NET base library that the modelled code
    relies on: null-or-empty tests, ordinal case-insensitive comparison and
    white-space trimming. */
module Text {
  import opened Base

  /** string.IsNullOrEmpty. */
  predicate IsNullOrEmpty(s: Option<string>) {
    s.None? || |s.value| == 0
  }

  /** Upper-casing of one character, restricted to the ASCII letters. */
  function UpperChar(c: char): (u: char)
    ensures 'a' <= c <= 'z' ==> u as int == c as int - 32
    ensures !('a' <= c <= 'z') ==> u == c
    ensures !('a' <= u <= 'z')
  {
    if 'a' <= c <= 'z' then (c as int - 32) as char else c
  }

  function Upper(s: string): (u: string)
    ensures |u| == |s|
    ensures forall i :: 0 <= i < |s| ==> u[i] == UpperChar(s[i])
  {
    seq(|s|, i requires 0 <= i < |s| => UpperChar(s[i]))
  }

  /** StringComparison.OrdinalIgnoreCase equality. */
  predicate EqualsIgnoreCase(a: string, b: string) {
    Upper(a) == Upper(b)
  }

  /** Two strings that agree ignoring case have the same length and agree
      character by character ignoring case; in particular an ASCII string
      without letters is only equal to itself. */
  lemma EqualsIgnoreCaseCharwise(a: string, b: string)
    ensures EqualsIgnoreCase(a, b) <==>
            (|a| == |b| && forall i :: 0 <= i < |a| ==> UpperChar(a[i]) == UpperChar(b[i]))
  {
    if |a| == |b| && forall i :: 0 <= i < |a| ==> UpperChar(a[i]) == UpperChar(b[i]) {
      assert Upper(a) == Upper(b);
    }
  }

  /** Characters char.IsWhiteSpace accepts in the ASCII range: TAB..CR and SPACE. */
  predicate IsWhite(c: char) {
    c == ' ' || ('\t' <= c <= '\r')
  }

  predicate AllWhite(s: string) {
    forall i :: 0 <= i < |s| ==> IsWhite(s[i])
  }

  function TrimStart(s: string): (r: string)
    ensures |r| <= |s| && r == s[|s| - |r|..]
    ensures AllWhite(s[..|s| - |r|])
    ensures |r| > 0 ==> !IsWhite(r[0])
  {
    if |s| > 0 && IsWhite(s[0]) then TrimStart(s[1..]) else s
  }

  function TrimEnd(s: string): (r: string)
    ensures |r| <= |s| && r == s[..|r|]
    ensures AllWhite(s[|r|..])
    ensures |r| > 0 ==> !IsWhite(r[|r| - 1])
  {
    if |s| > 0 && IsWhite(s[|s| - 1]) then TrimEnd(s[..|s| - 1]) else s
  }

  /** string.Trim over the ASCII white-space characters. */
  function Trim(s: string): (r: string)
    ensures exists i, j :: 0 <= i <= j <= |s| && r == s[i..j] && AllWhite(s[..i]) && AllWhite(s[j..])
    ensures |r| > 0 ==> !IsWhite(r[0]) && !IsWhite(r[|r| - 1])
  {
    var t := TrimStart(s);
    var r := TrimEnd(t);
    var i := |s| - |t|;
    assert r == s[i..i + |r|];
    assert s[i + |r|..] == t[|r|..];
    r
  }
}
